=== FILE: README.md ===
# Personal budget tracker — a Dafny model

This project models the core of a small personal budget tracker. Four parts are covered:

- The Express API that stores a user's income and expense entries ("budgets") and the MongoDB schema they are validated against.
- The sign-up, login and `/me` routes that issue and read JWT bearer tokens.
- The client library, which attaches the bearer token and computes the dashboard's totals and expenses-by-category chart.
- The transactions page, which filters and paginates the user's entries.

Every handler is modelled without side effects. The writing handlers (create, update, delete, sign-up) are functions from a store and a request to a status, a reply and a new store. Login and `/me` only read the users and return a status and a reply. Listing is a method that collects the owner's documents with a loop. These properties are proved:

- Tenant isolation and information hiding on the budget routes.
- Sign-up/login/`/me` round trips.
- The client's `Authorization` header is the one both routers of the one Express app accept. `/me` accepts it always. `authenticate` accepts it when `JWT_SECRET` is set, and the corrected `BudgetRoutes.AuthenticateShared` accepts it always.
- The aggregation identities.
- The filtering and pagination laws.

Modules, one per file:

- `Wrappers` and `Http` (wrappers.dfy): `Option` and the status-carrying `Outcome`.
- `Text` (text.dfy) covers the JavaScript string operations the code relies on: `trim` with the ECMAScript whitespace set, `toLowerCase` restricted to ASCII, `includes`, and `split` with one separator. `Split` and `Join` are proved inverse.
- `Seqs` (seqs.dfy): order-preserving `filter`, subsequences, and de-duplication in first-appearance order (`new Set(...)`).
- `Budget` (budget.dfy): the budget document and what saving a new document through the schema does. That means `trim`, `required`, the `type` enum, the `date` default and the timestamps.
- `Crypto` (crypto.dfy): bcrypt and `jsonwebtoken` as parameters, with the laws they are assumed to obey, and the `JWT_SECRET` environment variable.
- `BudgetRoutes` (budget_routes.dfy): the `authenticate` middleware and the list, create, update and delete handlers.
- `AuthRoutes` (auth_routes.dfy): sign-up, login and `/me`.
- `Api` (api.dfy): request headers, `calculateTotals` and `getExpensesByCategory`.
- `Transactions` (transactions.dfy): the category menu, the composed filters, the pagination slice, and the Prev/Next page state.
- `Session` (session.dfy): the client library and both routers taken together.

The ledger store is a map from document id to document. Both update and delete match on the id together with the owner. The user store is a sequence, because `User.findOne({ email })` returns the first match rather than doing a key lookup. Amounts are integers (minor currency units) and dates are epoch milliseconds. The browser's time zone is a fixed offset.

One quirk is modelled rather than corrected. The category menu puts `"all"` in front of the loaded categories. If an entry's category is literally `"all"`, it appears in the menu twice, and choosing it filters nothing.

## Model

| member | source | states |
|---|---|---|
| Text.Trim | backend/models/Budget.js:10-14 | the result has no leading or trailing whitespace and is a contiguous slice of the input with only whitespace cut on either side |
| Text.TrimIdempotent | backend/models/Budget.js:13 | trimming an already trimmed string changes nothing |
| Text.TrimEmptyIffAllSpace | backend/models/Budget.js:10-14 | a string trims to empty, and so fails `required`, exactly when it is all whitespace |
| Text.Split | backend/routes/auth.js:56 | the parts contain no separator and joined back with it give the input |
| Text.SplitJoin | backend/routes/auth.js:56 | splitting separator-free parts joined by the separator returns those parts |
| Text.SecondOfJoin | backend/routes/budgets.js:11 | separator-free parts that join back to a string holding the separator, as the parts of a split do, number at least two, and the second is the run of text between the first separator and the next one, or the end of the string |
| Text.SplitPair | backend/routes/budgets.js:11 | splitting `a + sep + b` (a, b separator-free) yields exactly `[a, b]` |
| Seqs.Filter | frontend/src/lib/api.ts:129-134 | the result is no longer than the input and every element of it satisfies the predicate |
| Seqs.FilterCount | frontend/src/lib/api.ts:129-134 | each element satisfying the predicate occurs in the result as often as in the input, any other not at all |
| Seqs.FilterIsSubsequence | frontend/src/lib/api.ts:129-134 | `filter` keeps exactly the elements satisfying the predicate, each as often as it occurs, in their original order |
| Seqs.FilterFuse | frontend/src/pages/Transactions.tsx:90-109 | two filters in a row equal one filter by the conjunction |
| Seqs.FilterAppend | frontend/src/lib/api.ts:129-134 | filtering distributes over concatenation |
| Seqs.Distinct | frontend/src/pages/Transactions.tsx:84 | every element appears, nothing else appears, no duplicates, in first-appearance order |
| Crypto.SigningKey | backend/routes/auth.js:7 | the auth routes' key is never empty: it is `JWT_SECRET` when that is set and non-empty, and `change-this` otherwise |
| Budget.NewDocument | backend/models/Budget.js:3-37 | a new document is accepted iff its category is not blank and its type is `income` or `expense`; it then satisfies the schema, with category and description trimmed, `date` defaulting to now and both timestamps now |
| BudgetRoutes.SecondField | backend/routes/budgets.js:11 | the second space-separated field exists exactly when the header holds a space; it is then the text that starts just after the first space and runs up to the next space or the end of the header |
| BudgetRoutes.VerifyToken | backend/routes/budgets.js:13 | nothing verifies while `JWT_SECRET` is unset or empty; whatever does verify, verifies to the same claims under the key the auth routes sign with |
| BudgetRoutes.Authenticate | backend/routes/budgets.js:7-20 | 401 `Missing token` exactly when the header is absent or empty; otherwise 403 `Invalid or expired token` unless the second space-separated field verifies under `JWT_SECRET` (nothing verifies when it is unset), in which case the verified claims are granted |
| BudgetRoutes.AuthenticateShared | backend/routes/budgets.js:7-20 | corrected: the same answers, verifying under the auth routes' key, `JWT_SECRET` or else `change-this`; identical to the original whenever `JWT_SECRET` is set |
| BudgetRoutes.SchemeNotChecked | backend/routes/budgets.js:11-13 | any first word, not only `Bearer`, is accepted in front of a valid token |
| BudgetRoutes.BearerSecondField | backend/routes/budgets.js:11 | for `scheme token` with no spaces in either, the token read is exactly `token` |
| BudgetRoutes.FindByOwner | backend/routes/budgets.js:25-27 | returns exactly the caller's documents, each as many times as owned keys hold it (so once per document), newest date first |
| BudgetRoutes.ListBudgets | backend/routes/budgets.js:23-33 | unauthenticated requests get the middleware's status and error; otherwise 200 with exactly the requester's documents, once per owned key, newest first |
| BudgetRoutes.DateOrNow | backend/routes/budgets.js:49 | `date \|\| new Date()`: an absent or zero (falsy) date becomes now, any other date is kept |
| BudgetRoutes.CreateBudget | backend/routes/budgets.js:36-59 | 400 `Missing required fields` for a falsy category, amount or type; 500 when the schema rejects the document; otherwise 201, the new document is owned by the requester, carries the body's fields (category and description trimmed, date `date \|\| now`, so an absent or zero date becomes now) and is the only change to the store; when authenticated with the required fields present, every failure is 500 `Server error` |
| BudgetRoutes.Apply | backend/routes/budgets.js:65-69 | every field present in the body replaces the stored one (through the schema's trim setters), absent fields are kept, `updatedAt` is refreshed |
| BudgetRoutes.UpdateBudget | backend/routes/budgets.js:62-76 | succeeds iff the document exists and belongs to the requester, else 404 `Budget not found` with the store unchanged; on success only that document changes |
| BudgetRoutes.DeleteBudget | backend/routes/budgets.js:79-92 | succeeds iff the document exists and belongs to the requester, removing exactly that key; else 404 and the store is unchanged |
| BudgetRoutes.OthersUntouched | backend/routes/budgets.js:36-92 | no create, update or delete changes a document owned by someone other than the requester |
| BudgetRoutes.ForeignLooksMissing | backend/routes/budgets.js:65-70 | updating or deleting another user's document is answered exactly as if it did not exist, and changes nothing |
| BudgetRoutes.CreateDeleteKeepInvariants | backend/routes/budgets.js:36-92 | create and delete keep every document under its own id and every document schema-valid |
| BudgetRoutes.UpdateCanReassignOwner | backend/routes/budgets.js:65-69 | as written, an owner's update naming another `userId` moves the document to that user |
| BudgetRoutes.UpdateCanBreakSchema | backend/routes/budgets.js:65-69 | as written, an update with a type outside the enum or a blank category succeeds and leaves an invalid document |
| BudgetRoutes.UpdateScoped | backend/routes/budgets.js:62-76 | corrected update: same authorization and 404 as the original, the owner is never changed, and a change that would violate the schema is refused with 500 |
| BudgetRoutes.UpdateScopedKeepsInvariants | backend/models/Budget.js:3-37 | the corrected update keeps the key set, every owner, ids matching keys and schema validity |
| BudgetRoutes.CreateThenAmend | backend/routes/budgets.js:36-76 | a created document can be amended by its owner, and under the corrected update it stays theirs even if the body names another owner |
| AuthRoutes.FindByEmail | backend/routes/auth.js:19 | returns a user with that email when one exists, none exactly when no user has it |
| AuthRoutes.FindById | backend/routes/auth.js:61 | returns a user with that id when one exists, none exactly when no user has it |
| AuthRoutes.SignToken | backend/routes/auth.js:7-12 | under the libraries' laws the token verifies, with the key `JWT_SECRET` or else `change-this`, to the user's id and email, and is a non-empty word without spaces |
| AuthRoutes.Signup | backend/routes/auth.js:15-32 | 400 for a falsy email or password, 409 when the email is taken, 500 `server_error` when the email is free but the new id collides, otherwise 201 with exactly one new user appended whose password hash is the salted hash, and a token signed for its id and email |
| AuthRoutes.Login | backend/routes/auth.js:35-49 | 400 for a falsy field; 200 iff `findOne` finds a user with the email and the password matches that user's hash, with exactly that user's profile and a token signed for them; otherwise 401 `invalid_credentials` |
| AuthRoutes.UnknownEmailLikeWrongPassword | backend/routes/auth.js:39-42 | an unknown email and a wrong password receive the identical answer |
| AuthRoutes.BearerToken | backend/routes/auth.js:56-58 | a token is read only from a header that is `Bearer `, one space and a space-free token |
| AuthRoutes.BearerTokenIff | backend/routes/auth.js:56-58 | `/me` extracts token `t` exactly from the header `Bearer t` with no space in `t` |
| AuthRoutes.Me | backend/routes/auth.js:52-71 | `no_token`, `invalid_token_format`, `invalid_or_expired_token` and 404 `user_not_found` each exactly under their condition, checked in that order; otherwise 200 with the public fields of exactly the user `findById` returns for the token's id |
| AuthRoutes.SignupThenLogin | backend/routes/auth.js:15-49 | after a successful sign-up, logging in with the same credentials succeeds with that user's session |
| AuthRoutes.SignupThenMe | backend/routes/auth.js:15-71 | the token a sign-up returns makes `/me` answer with the new account |
| AuthRoutes.SignupKeepsUnique | backend/routes/auth.js:19-25 | sign-up keeps emails unique and ids unique across users |
| Api.RequestHeaders | frontend/src/lib/api.ts:39-51 | JSON content type always; `Authorization: Bearer <token>` exactly for an authenticated request with a non-empty stored token |
| Api.GetHeaders | frontend/src/lib/api.ts:14-17 | only an `Authorization` header, present exactly for a non-empty token |
| Api.Reduce | frontend/src/lib/api.ts:131 | the left fold from `acc` adds the independently defined sum of all amounts to `acc` |
| Api.CalculateTotals | frontend/src/lib/api.ts:128-141 | income is the sum over income entries, expenses the sum over expense entries, balance their difference |
| Api.TotalsAdditive | frontend/src/lib/api.ts:128-141 | the totals of a concatenation are the sums of the totals, and the empty list totals zero |
| Api.TotalsSingle | frontend/src/lib/api.ts:128-141 | one entry counts toward income, expenses or neither, according to its type |
| Api.AddTo | frontend/src/lib/api.ts:145-156 | one step of the reducer grows the slots' total by exactly the entry's amount |
| Api.Group | frontend/src/lib/api.ts:145-156 | grouping preserves the grand total: the slots together hold the sum of all amounts |
| Api.GroupCats | frontend/src/lib/api.ts:145-156 | the grouped categories are the distinct categories in first-appearance order |
| Api.GroupAmounts | frontend/src/lib/api.ts:145-156 | each group's amount is the sum over the entries of that category |
| Api.SortDesc | frontend/src/lib/api.ts:158 | the result is a permutation, sorted by descending amount, with the same entries per amount and the same total |
| Api.SortDescKeepsTieOrder | frontend/src/lib/api.ts:158 | the sort is stable: equal amounts keep their input order |
| Api.ExpensesByCategory | frontend/src/lib/api.ts:143-159 | one slot per category that has an expense and no other, each holding that category's expense sum, sorted descending, ties in first-appearance order, total equal to the expenses total |
| Transactions.UniqueCategories | frontend/src/pages/Transactions.tsx:83-86 | `"all"` then every loaded category once, in first-appearance order |
| Transactions.EndOfLocalDay | frontend/src/pages/Transactions.tsx:103-106 | the last millisecond of the same local day |
| Transactions.EndOfLocalDayIff | frontend/src/pages/Transactions.tsx:105-108 | an instant is at or before the extended `to` exactly when its local day is not later than `to`'s |
| Transactions.Filtered | frontend/src/pages/Transactions.tsx:89-110 | an entry passing all four controls is kept as often as it was loaded, any other entry is dropped |
| Transactions.FilteredIsKeeps | frontend/src/pages/Transactions.tsx:89-110 | the four chained filters equal one filter by their conjunction |
| Transactions.FilteredSpec | frontend/src/pages/Transactions.tsx:89-110 | the filtered list is an order-preserving subsequence holding exactly the entries that pass search, category, type and date, each as often as it was loaded |
| Transactions.DefaultsKeepAll | frontend/src/pages/Transactions.tsx:56-59 | with the controls at their initial values every entry is shown |
| Transactions.DateRangeByDay | frontend/src/pages/Transactions.tsx:98-109 | with both ends picked, in range iff not before `from` and on or before `to`'s local day |
| Transactions.TotalPages | frontend/src/pages/Transactions.tsx:113 | the least page count whose pages of 8 hold all `n` entries |
| Transactions.Slice | frontend/src/pages/Transactions.tsx:114-117 | `slice` with indices inside the list gives the run between them, and nothing when the end is at or before the start |
| Transactions.Page | frontend/src/pages/Transactions.tsx:114-117 | no page holds more than 8 entries, whatever its number |
| Transactions.PageIsWindow | frontend/src/pages/Transactions.tsx:114-117 | page `p >= 1` is the entries at positions `(p-1)*8` up to `p*8`, cut at the list's end |
| Transactions.PageNonEmptyIff | frontend/src/pages/Transactions.tsx:113-117 | page `p >= 1` is non-empty exactly when `p <= totalPages` |
| Transactions.PagesCoverList | frontend/src/pages/Transactions.tsx:113-117 | pages 1 to `totalPages` concatenated give back the filtered list |
| Transactions.ValidPageShowsEntries | frontend/src/pages/Transactions.tsx:114-117 | a valid page of a non-empty list is non-empty |
| Transactions.ShowsPager | frontend/src/pages/Transactions.tsx:310 | the Prev/Next bar is rendered only when there is more than one page |
| Transactions.ClickPrev | frontend/src/pages/Transactions.tsx:310-319 | Prev moves back at most one page, does so exactly when the bar is shown and the page is not 1, and keeps a valid page valid |
| Transactions.ClickNext | frontend/src/pages/Transactions.tsx:323-330 | Next moves forward at most one page, does so exactly when the bar is shown and the page is not the last, and keeps a valid page valid |
| Transactions.StalePageAfterRefilter | frontend/src/pages/Transactions.tsx:89-117 | as written, for any filters and entries, a page number beyond the new last page stays selected and shows nothing; with at most one page left the pager is hidden and Prev/Next cannot move |
| Transactions.StalePageHidesEntries | frontend/src/pages/Transactions.tsx:310-330 | as written, narrowing the filters on page 2 leaves page 2 selected: it shows nothing and the pager is not rendered |
| Transactions.Refilter | frontend/src/pages/Transactions.tsx:310-330 | corrected: after a filter change the page is valid and shows entries whenever any pass |
| Session.SignedTokenAccepted | frontend/src/lib/api.ts:48-50 | the header the client builds from a token the auth routes signed is parsed by `/me`, granted with the signed claims by the corrected middleware, and by `authenticate` as written when `JWT_SECRET` is set |
| Session.NoTokenRejected | frontend/src/lib/api.ts:48-50 | without authentication or a stored token, both routers answer with their no-token error |
| Session.GuardSeesSignedUser | frontend/src/lib/api.ts:14-21 | the route guard's `get('/api/auth/me', token)` with a token signed for a stored user is answered with that user's account; with no token `/me` answers `no_token` |
| Session.LoginThenAuthenticated | backend/routes/auth.js:43-44 | after login, the client's next budgets request is authenticated as the user who logged in: by the corrected middleware always, by `authenticate` as written when `JWT_SECRET` is set |
| Session.UnsetSecretLocksOut | backend/routes/budgets.js:13 | as written, with `JWT_SECRET` unset a freshly logged-in user is recognised by `/me` yet refused with 403 by `authenticate` |

## Left out

- `backend/index.js` (server wiring, CORS, database connection): it holds no logic beyond mounting the routers.
- `backend/models/User.js` is not part of this model. A user is a record whose email lookups return the first match, and whose id is supplied by the caller as `freshId`.
- Database failures other than an id collision are not modelled. The collision is answered 500, as any thrown error is. Concurrency between requests is also left out, since every handler runs alone on a store.
- Mongoose casting (non-numeric amounts, unparsable dates and ids) and JSON `null` fields: the request bodies are typed records in which a field is present or absent. Dates are integers: an absent date and the falsy date 0 are replaced by now, as `date || new Date()` does, but an empty-string date cannot be expressed.
- Token expiry and `JWT_EXPIRES_IN`: `verify(key, token)` is a parameter that returns no claims for any token it rejects. The secrets themselves are modelled. `JWT_SECRET` is the field `jwtSecret` of `Crypto.Primitives`. The auth routes use it, or `change-this` when it is unset or empty; `authenticate` uses it bare. That `jsonwebtoken` refuses to verify with an unset or empty secret is an assumption about the library, written into `BudgetRoutes.VerifyToken`.
- bcrypt's salt rounds and timing: `hash`, `compare` and `sign` are parameters. `Crypto.Honest` assumes that `compare(p, hash(p, s))` holds, that `verify(k, sign(k, c))` returns `c`, and that signed tokens are non-empty and space-free.
- Session.SignedTokenAccepted and Session.LoginThenAuthenticated: they promise that `authenticate` as written grants the token when `JWT_SECRET` is set, and say nothing when it is unset. The converse, that with it unset `authenticate` grants nothing, follows from `BudgetRoutes.VerifyToken` and `BudgetRoutes.Authenticate`, and `Session.UnsetSecretLocksOut` states it for a fresh login.
- `Text.ToLower`: lower-cases ASCII letters only; `toLowerCase` also folds non-ASCII letters.
- Transactions.EndOfLocalDay: the local time zone is a fixed offset, so daylight-saving changes within a day are not modelled.
- Api.CalculateTotals: amounts are exact integers rather than IEEE doubles, so rounding in `Number` additions is not modelled.
- The client's `_id`-to-`id` remapping in `getBudgets`/`createBudget`/`updateBudget`, `fetch`, error throwing, and `localStorage` token persistence: they are I/O. The stored token is a parameter.
- React state, effects, dialogs, toasts and rendering on the transactions page. Only the derived lists and the page number are modelled.

## Findings

| source | as written | input that shows it | evidently intended | confidence | as-written member | corrected member |
|---|---|---|---|---|---|---|
| backend/routes/budgets.js:65-69 | the whole request body is the update, so a `userId` field in it is written | owner of document 7 sends `PUT /api/budgets/7` with body `{"userId": <other user>}` | the owner of a document is never changed by an update | high (not executed) | BudgetRoutes.UpdateCanReassignOwner | BudgetRoutes.UpdateScoped |
| backend/routes/budgets.js:65-69 | `findOneAndUpdate` runs without `runValidators`, so the schema's enum and `required` checks are skipped | `PUT /api/budgets/7` with body `{"type": "gift"}` or `{"category": "   "}` | an update leaves a document that satisfies the schema | high (not executed) | BudgetRoutes.UpdateCanBreakSchema | BudgetRoutes.UpdateScoped |
| frontend/src/pages/Transactions.tsx:89-117 | changing a filter keeps `currentPage`, and the pager is hidden when one page remains | nine entries, page 2 open, then search `re` leaves one entry: page 2 is empty and no Prev button is shown | a filter change returns to a page that exists | high (not executed) | Transactions.StalePageAfterRefilter, Transactions.StalePageHidesEntries | Transactions.Refilter |
| backend/routes/budgets.js:13 | `authenticate` verifies with the bare `process.env.JWT_SECRET`, while auth.js:7 signs with `JWT_SECRET` or else `change-this` | start the server without `JWT_SECRET`, log in, then `GET /api/budgets` with the returned token: `/me` accepts it, `authenticate` answers 403 | both routers verify with the key tokens are signed with | medium (not executed) | Session.UnsetSecretLocksOut | BudgetRoutes.AuthenticateShared |

An update is meant to change an entry's fields, never its owner; the code lets it change the owner too. The as-written members above model the code. The corrected `BudgetRoutes.UpdateScoped` is the update used in `BudgetRoutes.CreateThenAmend` and `BudgetRoutes.UpdateScopedKeepsInvariants`. The corrected `BudgetRoutes.AuthenticateShared` is the middleware for which `Session.SignedTokenAccepted` and `Session.LoginThenAuthenticated` prove the login round trip in every environment.

=== FILE: api.dfy ===
/** The client library: the `Authorization` header it attaches, and the two
    aggregations the dashboard shows, `calculateTotals` and
    `getExpensesByCategory`. */
module Api {
  import opened Wrappers
  import opened Budget
  import Seqs

  /** Headers of `request(method, path, body, auth)`: always the JSON content
      type, and `Authorization: Bearer <token>` only for an authenticated
      request with a non-empty stored token. */
  function RequestHeaders(auth: bool, token: Option<string>): (h: map<string, string>)
    ensures "Content-Type" in h && h["Content-Type"] == "application/json"
    ensures "Authorization" in h <==> auth && token.Some? && token.value != ""
    ensures "Authorization" in h ==> h["Authorization"] == "Bearer " + token.value
    ensures h.Keys <= {"Content-Type", "Authorization"}
  {
    var base := map["Content-Type" := "application/json"];
    if auth && token.Some? && token.value != "" then base["Authorization" := "Bearer " + token.value]
    else base
  }

  /** Headers of `get(path, token)`: nothing but `Authorization`, and that
      only for a non-empty token. */
  function GetHeaders(token: Option<string>): (h: map<string, string>)
    ensures "Authorization" in h <==> token.Some? && token.value != ""
    ensures "Authorization" in h ==> h["Authorization"] == "Bearer " + token.value
    ensures h.Keys <= {"Authorization"}
  {
    if token.Some? && token.value != "" then map["Authorization" := "Bearer " + token.value]
    else map[]
  }

  predicate IsIncome(e: Entry) {
    e.kind == Income
  }

  predicate IsExpense(e: Entry) {
    e.kind == Expense
  }

  /** The sum of the amounts of `es`. */
  function Sum(es: seq<Entry>): int {
    if es == [] then 0 else Sum(es[..|es| - 1]) + es[|es| - 1].amount
  }

  /** `es.reduce((sum, b) => sum + Number(b.amount), acc)`: a left fold,
      which adds the sum of all amounts to `acc`. */
  function Reduce(acc: int, es: seq<Entry>): (r: int)
    ensures r == acc + Sum(es)
    decreases |es|
  {
    if es == [] then acc
    else
      SumCons(es);
      Reduce(acc + es[0].amount, es[1..])
  }

  lemma {:induction false} SumAppend(a: seq<Entry>, b: seq<Entry>)
    ensures Sum(a + b) == Sum(a) + Sum(b)
    decreases |b|
  {
    if b == [] {
      assert a + b == a;
    } else {
      var n := |b| - 1;
      assert (a + b)[..|a + b| - 1] == a + b[..n];
      SumAppend(a, b[..n]);
    }
  }

  /** `Sum` read from the front. */
  lemma SumCons(es: seq<Entry>)
    requires es != []
    ensures Sum(es) == es[0].amount + Sum(es[1..])
  {
    SumAppend([es[0]], es[1..]);
    assert [es[0]] + es[1..] == es;
    assert Sum([es[0]]) == es[0].amount by {
      assert [es[0]][..0] == [];
    }
  }

  datatype Totals = Totals(income: int, expenses: int, balance: int)

  /** `calculateTotals`: the income and expense sums and their difference. */
  function CalculateTotals(es: seq<Entry>): (t: Totals)
    ensures t.income == Sum(Seqs.Filter(es, IsIncome))
    ensures t.expenses == Sum(Seqs.Filter(es, IsExpense))
    ensures t.balance == t.income - t.expenses
  {
    var income := Reduce(0, Seqs.Filter(es, IsIncome));
    var expenses := Reduce(0, Seqs.Filter(es, IsExpense));
    Totals(income, expenses, income - expenses)
  }

  /** Totals are additive over concatenation, all zero for no entries, and an
      entry of any other kind counts towards neither sum. */
  lemma {:induction false} TotalsAdditive(a: seq<Entry>, b: seq<Entry>)
    ensures CalculateTotals([]) == Totals(0, 0, 0)
    ensures CalculateTotals(a + b).income == CalculateTotals(a).income + CalculateTotals(b).income
    ensures CalculateTotals(a + b).expenses == CalculateTotals(a).expenses + CalculateTotals(b).expenses
    ensures CalculateTotals(a + b).balance == CalculateTotals(a).balance + CalculateTotals(b).balance
  {
    Seqs.FilterAppend(a, b, IsIncome);
    Seqs.FilterAppend(a, b, IsExpense);
    SumAppend(Seqs.Filter(a, IsIncome), Seqs.Filter(b, IsIncome));
    SumAppend(Seqs.Filter(a, IsExpense), Seqs.Filter(b, IsExpense));
  }

  /** The totals of a single entry: its amount on the side of its kind. */
  lemma TotalsSingle(e: Entry)
    ensures CalculateTotals([e]) ==
      Totals(if IsIncome(e) then e.amount else 0,
             if IsExpense(e) then e.amount else 0,
             (if IsIncome(e) then e.amount else 0) - (if IsExpense(e) then e.amount else 0))
  {
    assert [e][..0] == [];
  }

  /** One slot of the per-category accumulator. */
  datatype CategoryAmount = CategoryAmount(category: string, amount: int)

  /** The reducer of `getExpensesByCategory`: add the entry to the first slot
      with its category, or push a new slot at the end. Either way the slots
      together grow by exactly the entry's amount. */
  function AddTo(acc: seq<CategoryAmount>, e: Entry): (r: seq<CategoryAmount>)
    ensures Total(r) == Total(acc) + e.amount
  {
    if acc == [] then
      var r := [CategoryAmount(e.category, e.amount)];
      assert r[1..] == [];
      r
    else if acc[0].category == e.category then
      var r := [acc[0].(amount := acc[0].amount + e.amount)] + acc[1..];
      assert r[1..] == acc[1..];
      r
    else
      var t := AddTo(acc[1..], e);
      assert ([acc[0]] + t)[1..] == t;
      [acc[0]] + t
  }

  /** `es.reduce(reducer, [])`, by the fold's defining equation
      `reduce(xs + [x]) == reducer(reduce(xs), x)`. Together the slots hold
      the sum of all amounts. */
  function Group(es: seq<Entry>): (r: seq<CategoryAmount>)
    ensures Total(r) == Sum(es)
  {
    if es == [] then [] else AddTo(Group(es[..|es| - 1]), es[|es| - 1])
  }

  function Cats(g: seq<CategoryAmount>): (r: seq<string>)
    ensures |r| == |g| && forall i :: 0 <= i < |g| ==> r[i] == g[i].category
  {
    seq(|g|, i requires 0 <= i < |g| => g[i].category)
  }

  function EntryCats(es: seq<Entry>): (r: seq<string>)
    ensures |r| == |es| && forall i :: 0 <= i < |es| ==> r[i] == es[i].category
  {
    seq(|es|, i requires 0 <= i < |es| => es[i].category)
  }

  /** The amount of the first slot for category `k`, 0 when there is none. */
  function AmountOf(g: seq<CategoryAmount>, k: string): int {
    if g == [] then 0 else if g[0].category == k then g[0].amount else AmountOf(g[1..], k)
  }

  /** The sum of the amounts of the entries of category `k`. */
  function CategorySum(es: seq<Entry>, k: string): int {
    if es == [] then 0
    else CategorySum(es[..|es| - 1], k) + (if es[|es| - 1].category == k then es[|es| - 1].amount else 0)
  }

  /** The sum of the slot amounts. */
  function Total(g: seq<CategoryAmount>): int {
    if g == [] then 0 else g[0].amount + Total(g[1..])
  }

  /** What one step of the reducer does: a new category is appended to the
      categories, the entry's amount goes to its category's slot, and the
      total grows by that amount. */
  lemma AddToFacts(g: seq<CategoryAmount>, e: Entry)
    ensures Cats(AddTo(g, e)) == if e.category in Cats(g) then Cats(g) else Cats(g) + [e.category]
    ensures forall k :: AmountOf(AddTo(g, e), k) == AmountOf(g, k) + (if e.category == k then e.amount else 0)
    ensures Total(AddTo(g, e)) == Total(g) + e.amount
  {
    AddToCats(g, e);
    forall k ensures AmountOf(AddTo(g, e), k) == AmountOf(g, k) + (if e.category == k then e.amount else 0) {
      AddToAmount(g, e, k);
    }
  }

  lemma {:induction false} AddToCats(g: seq<CategoryAmount>, e: Entry)
    ensures Cats(AddTo(g, e)) == if e.category in Cats(g) then Cats(g) else Cats(g) + [e.category]
  {
    if g == [] {
      assert Cats(AddTo(g, e)) == [e.category];
      assert Cats(g) == [];
    } else if g[0].category != e.category {
      AddToCats(g[1..], e);
      AddToCatsSkip(g, e);
    } else {
      AddToCatsHit(g, e);
    }
  }

  /** The first slot has another category: the reducer passes it by. */
  lemma AddToCatsSkip(g: seq<CategoryAmount>, e: Entry)
    requires g != [] && g[0].category != e.category
    requires Cats(AddTo(g[1..], e)) == if e.category in Cats(g[1..]) then Cats(g[1..]) else Cats(g[1..]) + [e.category]
    ensures Cats(AddTo(g, e)) == if e.category in Cats(g) then Cats(g) else Cats(g) + [e.category]
  {
    assert g == [g[0]] + g[1..];
    CatsCons(g[0], g[1..]);
    CatsCons(g[0], AddTo(g[1..], e));
    assert e.category in Cats(g) <==> e.category in Cats(g[1..]);
    if e.category !in Cats(g[1..]) {
      assert [g[0].category] + (Cats(g[1..]) + [e.category]) == ([g[0].category] + Cats(g[1..])) + [e.category];
    }
  }

  /** The first slot has the entry's category: only its amount changes. */
  lemma AddToCatsHit(g: seq<CategoryAmount>, e: Entry)
    requires g != [] && g[0].category == e.category
    ensures e.category in Cats(g)
    ensures Cats(AddTo(g, e)) == Cats(g)
  {
    var h := g[0].(amount := g[0].amount + e.amount);
    assert g == [g[0]] + g[1..];
    CatsCons(h, g[1..]);
    CatsCons(g[0], g[1..]);
    assert Cats(g)[0] == e.category;
  }

  lemma CatsCons(x: CategoryAmount, g: seq<CategoryAmount>)
    ensures Cats([x] + g) == [x.category] + Cats(g)
  {
  }

  lemma {:induction false} AddToAmount(g: seq<CategoryAmount>, e: Entry, k: string)
    ensures AmountOf(AddTo(g, e), k) == AmountOf(g, k) + (if e.category == k then e.amount else 0)
  {
    if g != [] && g[0].category != e.category {
      AddToAmount(g[1..], e, k);
      assert AddTo(g, e)[1..] == AddTo(g[1..], e);
    } else if g != [] {
      assert AddTo(g, e)[1..] == g[1..];
    }
  }

  /** The accumulated slots: one per distinct category, in first-appearance
      order. */
  lemma {:induction false} GroupCats(es: seq<Entry>)
    ensures Cats(Group(es)) == Seqs.Distinct(EntryCats(es))
  {
    if es != [] {
      var n := |es| - 1;
      GroupCats(es[..n]);
      AddToFacts(Group(es[..n]), es[n]);
      assert EntryCats(es)[..n] == EntryCats(es[..n]);
    }
  }

  /** Each accumulated slot holds its category's sum. */
  lemma {:induction false} GroupAmounts(es: seq<Entry>, k: string)
    ensures AmountOf(Group(es), k) == CategorySum(es, k)
  {
    if es != [] {
      var n := |es| - 1;
      GroupAmounts(es[..n], k);
      AddToFacts(Group(es[..n]), es[n]);
    }
  }

  /** The amount of a slot is what `AmountOf` finds for its category when
      categories are distinct. */
  lemma {:induction false} AmountOfSlot(g: seq<CategoryAmount>, i: nat)
    requires i < |g| && Seqs.NoDups(Cats(g))
    ensures AmountOf(g, g[i].category) == g[i].amount
  {
    if i > 0 {
      assert Cats(g)[0] != Cats(g)[i];
      assert Seqs.NoDups(Cats(g[1..])) by {
        forall a, b | 0 <= a < b < |g| - 1 ensures Cats(g[1..])[a] != Cats(g[1..])[b] {
          assert Cats(g)[a + 1] != Cats(g)[b + 1];
        }
      }
      AmountOfSlot(g[1..], i - 1);
    }
  }

  /** Sorted by amount, largest first. */
  predicate SortedDesc(s: seq<CategoryAmount>) {
    forall i, j :: 0 <= i < j < |s| ==> s[i].amount >= s[j].amount
  }

  /** The slots of `s` whose amount is `a`, in their order in `s`. */
  function WithAmount(s: seq<CategoryAmount>, a: int): seq<CategoryAmount> {
    if s == [] then [] else (if s[0].amount == a then [s[0]] else []) + WithAmount(s[1..], a)
  }

  lemma {:induction false} WithAmountAppend(s: seq<CategoryAmount>, t: seq<CategoryAmount>, a: int)
    ensures WithAmount(s + t, a) == WithAmount(s, a) + WithAmount(t, a)
    decreases |s|
  {
    if s != [] {
      assert (s + t)[1..] == s[1..] + t;
      WithAmountAppend(s[1..], t, a);
    } else {
      assert s + t == t;
    }
  }

  lemma {:induction false} TotalAppend(s: seq<CategoryAmount>, t: seq<CategoryAmount>)
    ensures Total(s + t) == Total(s) + Total(t)
    decreases |s|
  {
    if s != [] {
      assert (s + t)[1..] == s[1..] + t;
      TotalAppend(s[1..], t);
    } else {
      assert s + t == t;
    }
  }

  /** Where a stable descending sort puts `x` among `t`: after every slot
      with a larger amount, before the first one that is not larger. */
  function InsertPos(x: CategoryAmount, t: seq<CategoryAmount>): (p: nat)
    ensures p <= |t|
    ensures forall i :: 0 <= i < p ==> t[i].amount > x.amount
    ensures p < |t| ==> t[p].amount <= x.amount
  {
    if t == [] || t[0].amount <= x.amount then 0 else 1 + InsertPos(x, t[1..])
  }

  function InsertDesc(x: CategoryAmount, t: seq<CategoryAmount>): seq<CategoryAmount> {
    var p := InsertPos(x, t);
    t[..p] + [x] + t[p..]
  }

  /** `rank` strictly increases along `s` among slots of equal amount. */
  ghost predicate TiesRanked(s: seq<CategoryAmount>, rank: CategoryAmount -> int) {
    forall i, j :: 0 <= i < j < |s| && s[i].amount == s[j].amount ==> rank(s[i]) < rank(s[j])
  }

  lemma InsertDescSplit(x: CategoryAmount, t: seq<CategoryAmount>)
    ensures var p := InsertPos(x, t); t == t[..p] + t[p..] && InsertDesc(x, t) == t[..p] + [x] + t[p..]
  {
  }

  lemma InsertDescMultiset(x: CategoryAmount, t: seq<CategoryAmount>)
    ensures multiset(InsertDesc(x, t)) == multiset(t) + multiset{x}
  {
    InsertDescSplit(x, t);
  }

  lemma InsertDescSorted(x: CategoryAmount, t: seq<CategoryAmount>)
    requires SortedDesc(t)
    ensures SortedDesc(InsertDesc(x, t))
  {
    var p := InsertPos(x, t);
    var r := InsertDesc(x, t);
    forall i, j | 0 <= i < j < |r| ensures r[i].amount >= r[j].amount {
      if j < p {
        assert r[i] == t[i] && r[j] == t[j];
      } else if j == p {
        assert r[i] == t[i];
      } else if i < p {
        assert r[i] == t[i] && r[j] == t[j - 1];
      } else if i == p {
        assert r[j] == t[j - 1];
      } else {
        assert r[i] == t[i - 1] && r[j] == t[j - 1];
      }
    }
  }

  lemma WithAmountMiddle(pre: seq<CategoryAmount>, x: CategoryAmount, post: seq<CategoryAmount>, a: int)
    ensures WithAmount(pre + [x] + post, a) ==
      WithAmount(pre, a) + (if x.amount == a then [x] else []) + WithAmount(post, a)
  {
    WithAmountAppend(pre + [x], post, a);
    WithAmountAppend(pre, [x], a);
    assert [x][1..] == [];
  }

  lemma InsertDescWithAmount(x: CategoryAmount, t: seq<CategoryAmount>, a: int)
    ensures WithAmount(InsertDesc(x, t), a) == (if x.amount == a then [x] else []) + WithAmount(t, a)
  {
    var p := InsertPos(x, t);
    var pre, post := t[..p], t[p..];
    InsertDescSplit(x, t);
    WithAmountMiddle(pre, x, post, a);
    WithAmountAppend(pre, post, a);
    if x.amount == a {
      InsertPosAbove(x, t);
      WithAmountNone(pre, a);
    }
  }

  /** Every slot before the insertion point has a larger amount. */
  lemma InsertPosAbove(x: CategoryAmount, t: seq<CategoryAmount>)
    ensures forall i :: 0 <= i < |t[..InsertPos(x, t)]| ==> t[..InsertPos(x, t)][i].amount > x.amount
  {
  }

  lemma InsertDescTotal(x: CategoryAmount, t: seq<CategoryAmount>)
    ensures Total(InsertDesc(x, t)) == x.amount + Total(t)
  {
    var p := InsertPos(x, t);
    InsertDescSplit(x, t);
    TotalAppend(t[..p] + [x], t[p..]);
    TotalAppend(t[..p], [x]);
    TotalAppend(t[..p], t[p..]);
  }

  lemma InsertDescRanked(x: CategoryAmount, t: seq<CategoryAmount>, rank: CategoryAmount -> int)
    requires TiesRanked(t, rank)
    requires forall y :: y in t ==> rank(x) < rank(y)
    ensures TiesRanked(InsertDesc(x, t), rank)
  {
    var p := InsertPos(x, t);
    var r := InsertDesc(x, t);
    forall i, j | 0 <= i < j < |r| && r[i].amount == r[j].amount ensures rank(r[i]) < rank(r[j]) {
      if j < p {
        assert r[i] == t[i] && r[j] == t[j];
      } else if j == p {
      } else if i < p {
        assert r[i] == t[i] && r[j] == t[j - 1];
      } else if i == p {
        assert r[j] == t[j - 1];
        assert t[j - 1] in t;
      } else {
        assert r[i] == t[i - 1] && r[j] == t[j - 1];
      }
    }
  }

  lemma {:induction false} WithAmountNone(s: seq<CategoryAmount>, a: int)
    requires forall i :: 0 <= i < |s| ==> s[i].amount > a
    ensures WithAmount(s, a) == []
    decreases |s|
  {
    if s != [] {
      WithAmountNone(s[1..], a);
    }
  }

  /** `Array.prototype.sort` with comparator `(a, b) => b.amount - a.amount`,
      which is stable: a permutation sorted by amount, largest first, in
      which slots of equal amount keep their relative order. */
  function SortDesc(g: seq<CategoryAmount>): (r: seq<CategoryAmount>)
    ensures multiset(r) == multiset(g)
    ensures SortedDesc(r)
    ensures forall a :: WithAmount(r, a) == WithAmount(g, a)
    ensures Total(r) == Total(g)
  {
    if g == [] then []
    else
      var t := SortDesc(g[1..]);
      SortDescStep(g, t);
      InsertDesc(g[0], t)
  }

  /** Inserting the first slot into a sorted arrangement of the others
      yields a sorted arrangement of all of them. */
  lemma SortDescStep(g: seq<CategoryAmount>, t: seq<CategoryAmount>)
    requires g != []
    requires multiset(t) == multiset(g[1..]) && SortedDesc(t) && Total(t) == Total(g[1..])
    requires forall a :: WithAmount(t, a) == WithAmount(g[1..], a)
    ensures multiset(InsertDesc(g[0], t)) == multiset(g)
    ensures SortedDesc(InsertDesc(g[0], t))
    ensures forall a :: WithAmount(InsertDesc(g[0], t), a) == WithAmount(g, a)
    ensures Total(InsertDesc(g[0], t)) == Total(g)
  {
    assert g == [g[0]] + g[1..];
    InsertDescMultiset(g[0], t);
    InsertDescSorted(g[0], t);
    InsertDescTotal(g[0], t);
    forall a ensures WithAmount(InsertDesc(g[0], t), a) == WithAmount(g, a) {
      InsertDescWithAmount(g[0], t, a);
    }
  }

  /** Stability in terms of any ranking that increases along the input: ties
      in the output are still in increasing rank. */
  lemma {:induction false} SortDescKeepsTieOrder(g: seq<CategoryAmount>, rank: CategoryAmount -> int)
    requires forall i, j :: 0 <= i < j < |g| ==> rank(g[i]) < rank(g[j])
    ensures TiesRanked(SortDesc(g), rank)
  {
    if g != [] {
      var t := SortDesc(g[1..]);
      SortDescKeepsTieOrder(g[1..], rank);
      forall y | y in t ensures rank(g[0]) < rank(y) {
        assert y in multiset(g[1..]);
        var k :| 0 <= k < |g[1..]| && g[1..][k] == y;
        assert g[k + 1] == y;
      }
      InsertDescRanked(g[0], t, rank);
    }
  }

  lemma InsertDescDistinct(x: CategoryAmount, t: seq<CategoryAmount>)
    requires Seqs.NoDups(Cats(t))
    requires forall y :: y in t ==> y.category != x.category
    ensures Seqs.NoDups(Cats(InsertDesc(x, t)))
  {
    var p := InsertPos(x, t);
    var r := InsertDesc(x, t);
    forall i, j | 0 <= i < j < |r| ensures Cats(r)[i] != Cats(r)[j] {
      if j < p {
        assert r[i] == t[i] && r[j] == t[j];
        assert Cats(t)[i] != Cats(t)[j];
      } else if j == p {
        assert r[i] == t[i];
        assert t[i] in t;
      } else if i < p {
        assert r[i] == t[i] && r[j] == t[j - 1];
        assert Cats(t)[i] != Cats(t)[j - 1];
      } else if i == p {
        assert r[j] == t[j - 1];
        assert t[j - 1] in t;
      } else {
        assert r[i] == t[i - 1] && r[j] == t[j - 1];
        assert Cats(t)[i - 1] != Cats(t)[j - 1];
      }
    }
  }

  /** Sorting slots with distinct categories keeps them distinct. */
  lemma {:induction false} SortDescDistinct(g: seq<CategoryAmount>)
    requires Seqs.NoDups(Cats(g))
    ensures Seqs.NoDups(Cats(SortDesc(g)))
  {
    if g != [] {
      NoDupsCatsTail(g);
      SortDescDistinct(g[1..]);
      SortDescMembers(g[1..]);
      InsertDescDistinct(g[0], SortDesc(g[1..]));
    }
  }

  /** Dropping the first slot keeps categories distinct, and none of the
      remaining slots shares the first slot's category. */
  lemma NoDupsCatsTail(g: seq<CategoryAmount>)
    requires g != [] && Seqs.NoDups(Cats(g))
    ensures Seqs.NoDups(Cats(g[1..]))
    ensures forall y :: y in g[1..] ==> y.category != g[0].category
  {
    forall a, b | 0 <= a < b < |g| - 1 ensures Cats(g[1..])[a] != Cats(g[1..])[b] {
      assert Cats(g)[a + 1] != Cats(g)[b + 1];
    }
    forall y | y in g[1..] ensures y.category != g[0].category {
      var k :| 0 <= k < |g[1..]| && g[1..][k] == y;
      assert Cats(g)[0] != Cats(g)[k + 1];
    }
  }

  /** The rank of a slot: the position where its category first occurs in `cats`. */
  function FirstSeen(cats: seq<string>): CategoryAmount -> int {
    (y: CategoryAmount) => if y.category in cats then Seqs.FirstIndex(cats, y.category) else |cats|
  }

  /** An expense of category `k` occurs among `es`. */
  predicate HasExpense(es: seq<Entry>, k: string) {
    exists e :: e in es && IsExpense(e) && e.category == k
  }

  /** Sorting keeps exactly the slots it was given. */
  lemma SortDescMembers(g: seq<CategoryAmount>)
    ensures forall y :: y in SortDesc(g) <==> y in g
  {
    var r := SortDesc(g);
    forall y ensures y in r <==> y in g {
      assert y in r <==> y in multiset(r);
      assert y in g <==> y in multiset(g);
    }
  }

  /** A category occurs among the expenses exactly when some entry of `es`
      is an expense of that category. */
  lemma ExpenseCatsIff(es: seq<Entry>, k: string)
    ensures k in EntryCats(Seqs.Filter(es, IsExpense)) <==> HasExpense(es, k)
  {
    var exps := Seqs.Filter(es, IsExpense);
    var cats := EntryCats(exps);
    Seqs.FilterIsSubsequence(es, IsExpense);
    if k in cats {
      var m :| 0 <= m < |cats| && cats[m] == k;
      assert exps[m] in exps;
    }
    if HasExpense(es, k) {
      var e :| e in es && IsExpense(e) && e.category == k;
      var m :| 0 <= m < |exps| && exps[m] == e;
      assert cats[m] == k;
    }
  }

  lemma DistinctMember(xs: seq<string>, k: string)
    ensures k in Seqs.Distinct(xs) <==> k in xs
  {
    var r := Seqs.Distinct(xs);
    if k in xs {
      var i :| 0 <= i < |xs| && xs[i] == k;
      assert xs[i] in r;
    }
    if k in r {
      var i :| 0 <= i < |r| && r[i] == k;
      assert r[i] in xs;
    }
  }

  /** The categories of the grouped slots are those with at least one expense. */
  lemma GroupCatsExpenses(es: seq<Entry>, k: string)
    ensures k in Cats(Group(Seqs.Filter(es, IsExpense))) <==> HasExpense(es, k)
  {
    var exps := Seqs.Filter(es, IsExpense);
    GroupCats(exps);
    DistinctMember(EntryCats(exps), k);
    ExpenseCatsIff(es, k);
  }

  /** Sorting keeps the set of categories. */
  lemma SortDescCats(g: seq<CategoryAmount>, k: string)
    ensures k in Cats(SortDesc(g)) <==> k in Cats(g)
  {
    var r := SortDesc(g);
    SortDescMembers(g);
    if k in Cats(r) {
      var i :| 0 <= i < |r| && Cats(r)[i] == k;
      assert r[i] in g;
      var j :| 0 <= j < |g| && g[j] == r[i];
      assert Cats(g)[j] == k;
    }
    if k in Cats(g) {
      var j :| 0 <= j < |g| && Cats(g)[j] == k;
      assert g[j] in r;
      var i :| 0 <= i < |r| && r[i] == g[j];
      assert Cats(r)[i] == k;
    }
  }

  /** Each slot of the result holds the sum of its category's expenses. */
  lemma ByCategoryAmounts(es: seq<Entry>, i: nat)
    requires i < |SortDesc(Group(Seqs.Filter(es, IsExpense)))|
    ensures var r := SortDesc(Group(Seqs.Filter(es, IsExpense)));
            r[i].amount == CategorySum(Seqs.Filter(es, IsExpense), r[i].category)
  {
    var exps := Seqs.Filter(es, IsExpense);
    var g := Group(exps);
    var r := SortDesc(g);
    GroupCats(exps);
    SortDescMembers(g);
    assert r[i] in g;
    var j :| 0 <= j < |g| && g[j] == r[i];
    AmountOfSlot(g, j);
    GroupAmounts(exps, r[i].category);
  }

  /** Slots of equal amount come in the order in which their categories were
      first met among the expenses. */
  lemma ByCategoryTies(es: seq<Entry>)
    ensures var cats := EntryCats(Seqs.Filter(es, IsExpense));
            var r := SortDesc(Group(Seqs.Filter(es, IsExpense)));
            forall i, j :: 0 <= i < j < |r| && r[i].amount == r[j].amount ==>
              r[i].category in cats && r[j].category in cats &&
              Seqs.FirstIndex(cats, r[i].category) < Seqs.FirstIndex(cats, r[j].category)
  {
    var exps := Seqs.Filter(es, IsExpense);
    var cats := EntryCats(exps);
    var g := Group(exps);
    var r := SortDesc(g);
    GroupCats(exps);
    SortDescMembers(g);
    var rank := FirstSeen(cats);
    forall i, j | 0 <= i < j < |g| ensures rank(g[i]) < rank(g[j]) {
      assert Cats(g)[i] in cats && Cats(g)[j] in cats;
    }
    SortDescKeepsTieOrder(g, rank);
    forall i | 0 <= i < |r| ensures r[i].category in cats {
      assert r[i] in g;
      var j :| 0 <= j < |g| && g[j] == r[i];
      assert Cats(g)[j] in cats;
    }
  }

  lemma ByCategoryDistinct(es: seq<Entry>)
    ensures Seqs.NoDups(Cats(SortDesc(Group(Seqs.Filter(es, IsExpense)))))
  {
    GroupCats(Seqs.Filter(es, IsExpense));
    SortDescDistinct(Group(Seqs.Filter(es, IsExpense)));
  }

  lemma ByCategoryTotal(es: seq<Entry>)
    ensures Total(SortDesc(Group(Seqs.Filter(es, IsExpense)))) == CalculateTotals(es).expenses
  {
  }

  lemma ByCategoryCatsAll(es: seq<Entry>)
    ensures forall k :: k in Cats(SortDesc(Group(Seqs.Filter(es, IsExpense)))) <==> HasExpense(es, k)
  {
    forall k ensures k in Cats(SortDesc(Group(Seqs.Filter(es, IsExpense)))) <==> HasExpense(es, k) {
      SortDescCats(Group(Seqs.Filter(es, IsExpense)), k);
      GroupCatsExpenses(es, k);
    }
  }

  lemma ByCategoryAmountsAll(es: seq<Entry>)
    ensures var r := SortDesc(Group(Seqs.Filter(es, IsExpense)));
            forall i :: 0 <= i < |r| ==> r[i].amount == CategorySum(Seqs.Filter(es, IsExpense), r[i].category)
  {
    var r := SortDesc(Group(Seqs.Filter(es, IsExpense)));
    forall i | 0 <= i < |r| ensures r[i].amount == CategorySum(Seqs.Filter(es, IsExpense), r[i].category) {
      ByCategoryAmounts(es, i);
    }
  }

  /** `getExpensesByCategory`: one slot per category that has expenses, each
      category once, holding the sum of that category's expense amounts;
      largest amount first, equal amounts in the order in which their
      categories were first met; the slots add up to the expense total. */
  function ExpensesByCategory(es: seq<Entry>): (r: seq<CategoryAmount>)
    ensures Seqs.NoDups(Cats(r))
    ensures forall k :: k in Cats(r) <==> HasExpense(es, k)
    ensures forall i :: 0 <= i < |r| ==> r[i].amount == CategorySum(Seqs.Filter(es, IsExpense), r[i].category)
    ensures SortedDesc(r)
    ensures var cats := EntryCats(Seqs.Filter(es, IsExpense));
            forall i, j :: 0 <= i < j < |r| && r[i].amount == r[j].amount ==>
              r[i].category in cats && r[j].category in cats &&
              Seqs.FirstIndex(cats, r[i].category) < Seqs.FirstIndex(cats, r[j].category)
    ensures Total(r) == CalculateTotals(es).expenses
  {
    ByCategoryDistinct(es);
    ByCategoryTotal(es);
    ByCategoryTies(es);
    ByCategoryCatsAll(es);
    ByCategoryAmountsAll(es);
    SortDesc(Group(Seqs.Filter(es, IsExpense)))
  }
}

=== FILE: auth_routes.dfy ===
/** The `/api/auth` routes: sign-up, login and `/me`, as transitions on the
    users collection. Password hashing and token signing are the abstract
    operations of `Crypto`. */
module AuthRoutes {
  import opened Wrappers
  import opened Http
  import opened Crypto
  import Text

  type UserId = nat

  /** A stored user. Only the hash of the password is kept. */
  datatype User = User(id: UserId, email: string, passwordHash: string, name: Option<string>, createdAt: int)

  /** The users collection in natural (insertion) order, which is the order
      in which `findOne` meets the documents. */
  type Users = seq<User>

  /** The public fields sent back by sign-up and login. */
  datatype Profile = Profile(id: UserId, email: string, name: Option<string>)

  /** `{ user, accessToken }`. */
  datatype Session = Session(user: Profile, accessToken: string)

  /** The fields `/me` selects: `_id email name createdAt`. */
  datatype Account = Account(id: UserId, email: string, name: Option<string>, createdAt: int)

  /** The JSON body of sign-up and login; `None` is an absent field. */
  datatype Credentials = Credentials(email: Option<string>, password: Option<string>, name: Option<string>)

  /** An absent or empty string, which JavaScript treats as false. */
  predicate Falsy(s: Option<string>) {
    s.None? || s.value == ""
  }

  /** `User.findOne({ email })`: the first user with that exact email. */
  function FindByEmail(users: Users, email: string): (r: Option<User>)
    ensures r.None? <==> forall i :: 0 <= i < |users| ==> users[i].email != email
    ensures r.Some? ==> r.value.email == email && r.value in users
  {
    if users == [] then None
    else if users[0].email == email then Some(users[0])
    else FindByEmail(users[1..], email)
  }

  /** `User.findById(id)`: the first user with that id. */
  function FindById(users: Users, id: UserId): (r: Option<User>)
    ensures r.None? <==> forall i :: 0 <= i < |users| ==> users[i].id != id
    ensures r.Some? ==> r.value.id == id && r.value in users
  {
    if users == [] then None
    else if users[0].id == id then Some(users[0])
    else FindById(users[1..], id)
  }

  /** `signToken(user)`: a token whose claims are the user's id and email,
      signed with `JWT_SECRET` or its fallback. Under the libraries' laws it
      verifies back to those claims and is a single space-free word. */
  function SignToken(u: User, c: Primitives): (t: string)
    ensures Honest(c) ==> c.verify(SigningKey(c), t) == Some(Claims(u.id, u.email))
    ensures Honest(c) ==> t != "" && ' ' !in t
  {
    c.sign(SigningKey(c), Claims(u.id, u.email))
  }

  function ProfileOf(u: User): Profile {
    Profile(u.id, u.email, u.name)
  }

  /** POST `/api/auth/signup`. A falsy email or password is answered with
      400 and a taken email with 409; otherwise the password is hashed with a
      fresh salt and exactly one user is appended, answered with 201, the
      user's public fields and a token for them. Saving fails (500) only when
      the new id collides with a stored one. */
  function Signup(users: Users, body: Credentials, c: Primitives, salt: nat, freshId: UserId, now: int): (res: (Outcome<Session>, Users))
    ensures Falsy(body.email) || Falsy(body.password) ==> res == (Fail(400, "email_password_required"), users)
    ensures !Falsy(body.email) && !Falsy(body.password) && FindByEmail(users, body.email.value).Some? ==>
      res == (Fail(409, "user_exists"), users)
    ensures res.0.Fail? ==> res.1 == users && res.0.status in {400, 409, 500}
    ensures !Falsy(body.email) && !Falsy(body.password) && FindByEmail(users, body.email.value).None?
            && FindById(users, freshId).Some? ==>
      res == (Fail(500, "server_error"), users)
    ensures res.0.Done? <==>
      && !Falsy(body.email) && !Falsy(body.password)
      && FindByEmail(users, body.email.value).None?
      && FindById(users, freshId).None?
    ensures res.0.Done? ==>
      && res.0.status == 201
      && |res.1| == |users| + 1 && res.1[..|users|] == users
      && res.1[|users|].id == freshId
      && res.1[|users|].email == body.email.value
      && res.1[|users|].name == body.name
      && res.1[|users|].passwordHash == c.hash(body.password.value, salt)
      && res.0.value.user == ProfileOf(res.1[|users|])
      && res.0.value.accessToken == c.sign(SigningKey(c), Claims(freshId, body.email.value))
  {
    if Falsy(body.email) || Falsy(body.password) then (Fail(400, "email_password_required"), users)
    else if FindByEmail(users, body.email.value).Some? then (Fail(409, "user_exists"), users)
    else if FindById(users, freshId).Some? then (Fail(500, "server_error"), users)
    else
      var u := User(freshId, body.email.value, c.hash(body.password.value, salt), body.name, now);
      assert (users + [u])[..|users|] == users;
      (Done(201, Session(ProfileOf(u), SignToken(u, c))), users + [u])
  }

  /** POST `/api/auth/login`. A falsy email or password is answered with
      400. An unknown email and a wrong password are both answered with the
      same 401 `invalid_credentials`; otherwise the answer is 200 with the
      user's public fields and a token for them. The store is only read. */
  function Login(users: Users, body: Credentials, c: Primitives): (r: Outcome<Session>)
    ensures Falsy(body.email) || Falsy(body.password) ==> r == Fail(400, "email_password_required")
    ensures r.Done? <==>
      && !Falsy(body.email) && !Falsy(body.password)
      && FindByEmail(users, body.email.value).Some?
      && c.compare(body.password.value, FindByEmail(users, body.email.value).value.passwordHash)
    ensures r.Fail? && r.status != 400 ==> r == Fail(401, "invalid_credentials")
    ensures r.Done? ==>
      && r.status == 200
      && r.value.user.email == body.email.value
      && r.value.user in (set u | u in users :: ProfileOf(u))
      && r.value.user == ProfileOf(FindByEmail(users, body.email.value).value)
      && r.value.accessToken == c.sign(SigningKey(c), Claims(r.value.user.id, r.value.user.email))
  {
    if Falsy(body.email) || Falsy(body.password) then Fail(400, "email_password_required")
    else
      match FindByEmail(users, body.email.value)
      case None => Fail(401, "invalid_credentials")
      case Some(u) =>
        if !c.compare(body.password.value, u.passwordHash) then Fail(401, "invalid_credentials")
        else Done(200, Session(ProfileOf(u), SignToken(u, c)))
  }

  /** No account enumeration: a login with an unknown email and a login with
      a known email but the wrong password get the identical answer. */
  lemma UnknownEmailLikeWrongPassword(users: Users, c: Primitives, unknown: Credentials, wrong: Credentials)
    requires !Falsy(unknown.email) && !Falsy(unknown.password)
    requires FindByEmail(users, unknown.email.value).None?
    requires !Falsy(wrong.email) && !Falsy(wrong.password)
    requires FindByEmail(users, wrong.email.value).Some?
    requires !c.compare(wrong.password.value, FindByEmail(users, wrong.email.value).value.passwordHash)
    ensures Login(users, unknown, c) == Login(users, wrong, c) == Fail(401, "invalid_credentials")
  {
  }

  /** `auth.split(' ')` has exactly two parts and the first is `Bearer`: the
      token is the second part. */
  function BearerToken(header: string): (r: Option<string>)
    ensures r.Some? ==> header == "Bearer " + r.value && ' ' !in r.value
  {
    var parts := Text.Split(header, ' ');
    if |parts| == 2 && parts[0] == "Bearer" then
      assert parts[1..] == [parts[1]];
      assert Text.Join(parts, ' ') == "Bearer" + [' '] + parts[1];
      Some(parts[1])
    else None
  }

  /** The header format `/me` accepts is exactly `Bearer`, one space and a
      token without spaces. */
  lemma {:induction false} BearerTokenIff(header: string, token: string)
    ensures BearerToken(header) == Some(token) <==> header == "Bearer " + token && ' ' !in token
  {
    if header == "Bearer " + token && ' ' !in token {
      Text.SplitPair("Bearer", token, ' ');
      assert "Bearer" + [' '] + token == "Bearer " + token;
    }
  }

  function AccountOf(u: User): Account {
    Account(u.id, u.email, u.name, u.createdAt)
  }

  /** GET `/api/auth/me`. The checks come in this order: an absent or empty
      header (401 `no_token`), a header that is not `Bearer <token>` (401
      `invalid_token_format`), a token that does not verify (401
      `invalid_or_expired_token`), a verified token whose user id is no longer
      stored (404 `user_not_found`). Otherwise 200 with the stored user. */
  function Me(users: Users, header: Option<string>, c: Primitives): (r: Outcome<Account>)
    ensures r == Fail(401, "no_token") <==> header.None? || header.value == ""
    ensures r == Fail(401, "invalid_token_format") <==>
      header.Some? && header.value != "" && BearerToken(header.value).None?
    ensures r == Fail(401, "invalid_or_expired_token") <==>
      && header.Some? && header.value != "" && BearerToken(header.value).Some?
      && c.verify(SigningKey(c), BearerToken(header.value).value).None?
    ensures r == Fail(404, "user_not_found") <==>
      && header.Some? && header.value != "" && BearerToken(header.value).Some?
      && c.verify(SigningKey(c), BearerToken(header.value).value).Some?
      && FindById(users, c.verify(SigningKey(c), BearerToken(header.value).value).value.id).None?
    ensures r.Fail? ==> r.status in {401, 404}
    ensures r.Done? ==>
      && r.status == 200
      && r.value.id == c.verify(SigningKey(c), BearerToken(header.value).value).value.id
      && r.value in (set u | u in users :: AccountOf(u))
      && r.value == AccountOf(FindById(users, c.verify(SigningKey(c), BearerToken(header.value).value).value.id).value)
  {
    if header.None? || header.value == "" then Fail(401, "no_token")
    else
      match BearerToken(header.value)
      case None => Fail(401, "invalid_token_format")
      case Some(token) =>
        match c.verify(SigningKey(c), token)
        case None => Fail(401, "invalid_or_expired_token")
        case Some(claims) =>
          match FindById(users, claims.id)
          case None => Fail(404, "user_not_found")
          case Some(u) => Done(200, AccountOf(u))
  }

  lemma FindByEmailAppend(users: Users, u: User, email: string)
    requires FindByEmail(users, email).None? && u.email == email
    ensures FindByEmail(users + [u], email) == Some(u)
  {
    if users != [] {
      assert (users + [u])[1..] == users[1..] + [u];
      FindByEmailAppend(users[1..], u, email);
    }
  }

  lemma FindByIdAppend(users: Users, u: User, id: UserId)
    requires FindById(users, id).None? && u.id == id
    ensures FindById(users + [u], id) == Some(u)
  {
    if users != [] {
      assert (users + [u])[1..] == users[1..] + [u];
      FindByIdAppend(users[1..], u, id);
    }
  }

  /** Sign-up then login with the same credentials succeeds and hands back
      the same user and token, given that a password matches its own hash. */
  lemma SignupThenLogin(users: Users, body: Credentials, c: Primitives, salt: nat, freshId: UserId, now: int)
    requires Honest(c)
    requires Signup(users, body, c, salt, freshId, now).0.Done?
    ensures Login(Signup(users, body, c, salt, freshId, now).1, body, c)
            == Done(200, Signup(users, body, c, salt, freshId, now).0.value)
  {
    var res := Signup(users, body, c, salt, freshId, now);
    var u := res.1[|users|];
    assert res.1 == users + [u];
    FindByEmailAppend(users, u, body.email.value);
  }

  /** The token handed out by sign-up, presented as `Bearer <token>`, lets
      `/me` find the new user. */
  lemma SignupThenMe(users: Users, body: Credentials, c: Primitives, salt: nat, freshId: UserId, now: int)
    requires Honest(c)
    requires Signup(users, body, c, salt, freshId, now).0.Done?
    ensures var res := Signup(users, body, c, salt, freshId, now);
            Me(res.1, Some("Bearer " + res.0.value.accessToken), c)
            == Done(200, Account(freshId, body.email.value, body.name, now))
  {
    var res := Signup(users, body, c, salt, freshId, now);
    var u := res.1[|users|];
    var token := res.0.value.accessToken;
    assert res.1 == users + [u];
    assert token == c.sign(SigningKey(c), Claims(freshId, body.email.value));
    BearerTokenIff("Bearer " + token, token);
    FindByIdAppend(users, u, freshId);
  }

  predicate UniqueEmails(users: Users) {
    forall i, j :: 0 <= i < j < |users| ==> users[i].email != users[j].email
  }

  predicate UniqueIds(users: Users) {
    forall i, j :: 0 <= i < j < |users| ==> users[i].id != users[j].id
  }

  /** Sign-up never creates a second user with an email or an id that is
      already taken. */
  lemma SignupKeepsUnique(users: Users, body: Credentials, c: Primitives, salt: nat, freshId: UserId, now: int)
    requires UniqueEmails(users) && UniqueIds(users)
    ensures UniqueEmails(Signup(users, body, c, salt, freshId, now).1)
    ensures UniqueIds(Signup(users, body, c, salt, freshId, now).1)
  {
  }
}

=== FILE: budget.dfy ===
/** The budget (ledger entry) document and the constraints its schema puts on
    every document that is saved. */
module Budget {
  import opened Wrappers
  import Text

  type EntryId = nat
  type UserId = nat

  /** The two values of the `type` path's enum. */
  const Income := "income"
  const Expense := "expense"

  predicate IsKind(k: string) {
    k == Income || k == Expense
  }

  /** A stored budget document. `kind` is the schema's `type` path; it is kept
      as a string because a document can be changed by an update that does not
      run the enum validator. Amounts are whole cents and dates are
      millisecond timestamps. */
  datatype Entry = Entry(
    id: EntryId,
    userId: UserId,
    category: string,
    amount: int,
    kind: string,
    date: int,
    description: Option<string>,
    createdAt: int,
    updatedAt: int)

  /** What the schema's validators and setters guarantee of a document they
      accept: a non-empty trimmed `category`, a `type` from the enum and a
      trimmed `description`. `userId`, `amount` and `date` are always present
      by construction; `amount` has no sign or range constraint. */
  predicate SchemaValid(e: Entry) {
    && e.category != ""
    && Text.Trimmed(e.category)
    && IsKind(e.kind)
    && (e.description.Some? ==> Text.Trimmed(e.description.value))
  }

  function TrimOpt(s: Option<string>): Option<string> {
    match s
    case None => None
    case Some(v) => Some(Text.Trim(v))
  }

  /** Building and validating a new document, as saving `new Budget({...})`
      does: strings are trimmed, a missing `date` defaults to `now`, both
      timestamps are set to `now`, and the document is rejected (`None`, a
      validation error) when the trimmed category is empty or the type is not
      in the enum. The amount is never a reason for rejection. */
  function NewDocument(
    id: EntryId, userId: UserId, category: string, amount: int, kind: string,
    date: Option<int>, description: Option<string>, now: int): (r: Option<Entry>)
    ensures r.Some? <==> !Text.AllSpace(category) && IsKind(kind)
    ensures r.Some? ==> SchemaValid(r.value)
    ensures r.Some? ==> r.value.id == id && r.value.userId == userId
    ensures r.Some? ==> r.value.amount == amount && r.value.kind == kind
    ensures r.Some? ==> r.value.date == (if date.Some? then date.value else now)
    ensures r.Some? ==> r.value.createdAt == now && r.value.updatedAt == now
    ensures r.Some? ==> r.value.category == Text.Trim(category) && r.value.description == TrimOpt(description)
  {
    Text.TrimEmptyIffAllSpace(category);
    var e := Entry(id, userId, Text.Trim(category), amount, kind,
                   match date case Some(d) => d case None => now,
                   TrimOpt(description), now, now);
    if e.category != "" && IsKind(e.kind) then Some(e) else None
  }
}

=== FILE: budget_routes.dfy ===
/** The `/api/budgets` routes: the `authenticate` middleware and the list,
    create, update and delete handlers, each as a transition on the ledger
    store. Every handler matches a document on its id AND its owner. */
module BudgetRoutes {
  import opened Wrappers
  import opened Http
  import opened Budget
  import opened Crypto
  import Text

  /** The budgets collection, keyed by document id. */
  type Store = map<EntryId, Entry>

  /** Result of the `authenticate` middleware: either the verified claims are
      handed to the route, or the request is answered at once. */
  datatype Access = Granted(claims: Claims) | Denied(status: int, error: string)

  /** `authHeader.split(" ")[1]`: the second space-separated field of the
      header, `undefined` when the header holds no space. */
  function SecondField(header: string): (r: Option<string>)
    ensures r.Some? <==> ' ' in header
    ensures r.Some? ==> ' ' !in r.value
    ensures ' ' in header ==>
      var i := Text.IndexOf(header, ' ');
      && r.Some? && i + 1 + |r.value| <= |header|
      && header[i + 1..i + 1 + |r.value|] == r.value
      && (i + 1 + |r.value| == |header| || header[i + 1 + |r.value|] == ' ')
  {
    var parts := Text.Split(header, ' ');
    if |parts| >= 2 then
      assert header[|parts[0]|] == ' ';
      Text.SecondOfJoin(header, ' ', parts);
      Some(parts[1])
    else None
  }

  /** `jwt.verify(token, process.env.JWT_SECRET)`. Without a secret (the
      variable unset or empty) the library throws whatever the token, and the
      middleware answers that like any token that does not verify. */
  function VerifyToken(token: string, c: Primitives): (r: Option<Claims>)
    ensures !SecretSet(c) ==> r.None?
    ensures r.Some? ==> SecretSet(c) && c.verify(SigningKey(c), token) == r
  {
    if SecretSet(c) then c.verify(c.jwtSecret.value, token) else None
  }

  /** The `authenticate` middleware. An absent or empty header is answered
      with 401; otherwise the second field of the header is verified and
      anything that does not verify (including a missing second field) is
      answered with 403. The scheme word in front of the token is not checked. */
  function Authenticate(header: Option<string>, c: Primitives): (a: Access)
    ensures a == Denied(401, "Missing token") <==> header.None? || header.value == ""
    ensures a.Denied? ==> a == Denied(401, "Missing token") || a == Denied(403, "Invalid or expired token")
    ensures a.Granted? <==>
      && header.Some? && header.value != ""
      && SecondField(header.value).Some?
      && VerifyToken(SecondField(header.value).value, c).Some?
    ensures a.Granted? ==> VerifyToken(SecondField(header.value).value, c) == Some(a.claims)
  {
    if header.None? || header.value == "" then Denied(401, "Missing token")
    else
      match SecondField(header.value)
      case None => Denied(403, "Invalid or expired token")
      case Some(token) =>
        match VerifyToken(token, c)
        case None => Denied(403, "Invalid or expired token")
        case Some(claims) => Granted(claims)
  }

  /** Corrected `authenticate`: verifies with the key the auth routes sign
      with, `process.env.JWT_SECRET || 'change-this'`. It answers exactly as
      the original whenever the variable is set; when it is not, it still
      grants the claims of a token the auth routes signed. */
  function AuthenticateShared(header: Option<string>, c: Primitives): (a: Access)
    ensures SecretSet(c) ==> a == Authenticate(header, c)
    ensures a == Denied(401, "Missing token") <==> header.None? || header.value == ""
    ensures a.Granted? <==>
      && header.Some? && header.value != ""
      && SecondField(header.value).Some?
      && c.verify(SigningKey(c), SecondField(header.value).value).Some?
    ensures a.Granted? ==> c.verify(SigningKey(c), SecondField(header.value).value) == Some(a.claims)
  {
    Authenticate(header, c.(jwtSecret := Some(SigningKey(c))))
  }

  /** Whatever word precedes the first space, the middleware reads the token
      that follows it: `Basic t` authenticates exactly like `Bearer t`. */
  lemma {:induction false} SchemeNotChecked(scheme: string, token: string, c: Primitives)
    requires ' ' !in scheme && ' ' !in token
    ensures SecondField(scheme + " " + token) == Some(token)
    ensures Authenticate(Some(scheme + " " + token), c) == Authenticate(Some("Bearer " + token), c)
  {
    BearerSecondField(scheme, token);
    BearerSecondField("Bearer", token);
  }

  lemma BearerSecondField(scheme: string, token: string)
    requires ' ' !in scheme && ' ' !in token
    ensures Text.Split(scheme + " " + token, ' ') == [scheme, token]
    ensures SecondField(scheme + " " + token) == Some(token)
  {
    Text.SplitPair(scheme, token, ' ');
  }

  /** The document `id` exists and belongs to `user`: the filter
      `{ _id: id, userId: user }` of the update and delete handlers. */
  predicate Owns(store: Store, user: UserId, id: EntryId) {
    id in store && store[id].userId == user
  }

  /** The ids of the documents matching `{ userId: user }`. */
  function OwnedIds(store: Store, user: UserId): set<EntryId> {
    set k | k in store && store[k].userId == user
  }

  /** Sorted by `date` descending (`sort({ date: -1 })`). */
  predicate NewestFirst(s: seq<Entry>) {
    forall i, j :: 0 <= i < j < |s| ==> s[i].date >= s[j].date
  }

  function InsertByDate(x: Entry, s: seq<Entry>): (r: seq<Entry>)
    requires NewestFirst(s)
    ensures NewestFirst(r)
    ensures multiset(r) == multiset(s) + multiset{x}
    ensures r[0] == x || (s != [] && r[0] == s[0])
  {
    if s == [] then [x]
    else if s[0].date <= x.date then
      NewestFirstCons(x, s);
      [x] + s
    else
      NewestFirstTail(s);
      var t := InsertByDate(x, s[1..]);
      assert s == [s[0]] + s[1..];
      assert multiset([s[0]] + t) == multiset{s[0]} + multiset(t);
      NewestFirstCons(s[0], t);
      [s[0]] + t
  }

  lemma NewestFirstTail(s: seq<Entry>)
    requires s != [] && NewestFirst(s)
    ensures NewestFirst(s[1..])
    ensures |s| > 1 ==> s[0].date >= s[1].date
  {
    forall i, j | 0 <= i < j < |s| - 1 ensures s[1..][i].date >= s[1..][j].date {
      assert s[1..][i] == s[i + 1] && s[1..][j] == s[j + 1];
    }
  }

  lemma NewestFirstCons(e: Entry, t: seq<Entry>)
    requires NewestFirst(t) && (t == [] || e.date >= t[0].date)
    ensures NewestFirst([e] + t)
  {
    forall i, j | 0 <= i < j < |[e] + t| ensures ([e] + t)[i].date >= ([e] + t)[j].date {
      if i == 0 {
        assert ([e] + t)[j] == t[j - 1];
      } else {
        assert ([e] + t)[i] == t[i - 1] && ([e] + t)[j] == t[j - 1];
      }
    }
  }

  /** Inserting adds exactly one element and no other. */
  lemma InsertByDateMembers(x: Entry, s: seq<Entry>)
    requires NewestFirst(s)
    ensures |InsertByDate(x, s)| == |s| + 1
    ensures forall d :: d in InsertByDate(x, s) <==> d in s || d == x
  {
    var r := InsertByDate(x, s);
    assert |multiset(r)| == |multiset(s)| + 1;
    forall d ensures d in r <==> d in s || d == x {
      assert d in r <==> d in multiset(r);
      assert d in s <==> d in multiset(s);
    }
  }

  /** The ids among `ids` under which `store` holds document `e`. */
  ghost function Holding(store: Store, ids: set<EntryId>, e: Entry): set<EntryId> {
    set k | k in ids && k in store && store[k] == e
  }

  /** The documents matching `{ userId: user }`, each once, sorted by `date`
      descending: every document occurs as many times as there are owned keys
      holding it. Documents with equal dates come in an unspecified order, as
      the database promises no order among them. */
  method FindByOwner(store: Store, user: UserId) returns (out: seq<Entry>)
    ensures NewestFirst(out)
    ensures forall e :: e in out ==> e in store.Values && e.userId == user
    ensures forall k :: k in OwnedIds(store, user) ==> store[k] in out
    ensures |out| == |OwnedIds(store, user)|
    ensures forall e :: multiset(out)[e] == |Holding(store, OwnedIds(store, user), e)|
  {
    var remaining := OwnedIds(store, user);
    out := [];
    while remaining != {}
      invariant Collected(store, user, remaining, out)
      decreases |remaining|
    {
      var k :| k in remaining;
      CollectStep(store, user, remaining, out, k);
      out := InsertByDate(store[k], out);
      remaining := remaining - {k};
    }
    assert OwnedIds(store, user) - remaining == OwnedIds(store, user);
  }

  /** The loop invariant of `FindByOwner`: `out` holds, newest first, exactly
      the owned documents whose ids are no longer `remaining`. */
  ghost predicate Collected(store: Store, user: UserId, remaining: set<EntryId>, out: seq<Entry>) {
    && remaining <= OwnedIds(store, user)
    && NewestFirst(out)
    && |out| == |OwnedIds(store, user) - remaining|
    && (forall k :: k in OwnedIds(store, user) - remaining ==> store[k] in out)
    && (forall e :: e in out ==> e in store.Values && e.userId == user)
    && (forall e :: multiset(out)[e] == |Holding(store, OwnedIds(store, user) - remaining, e)|)
  }

  lemma CollectStep(store: Store, user: UserId, remaining: set<EntryId>, out: seq<Entry>, k: EntryId)
    requires Collected(store, user, remaining, out) && k in remaining
    ensures Collected(store, user, remaining - {k}, InsertByDate(store[k], out))
  {
    var owned := OwnedIds(store, user);
    assert owned - (remaining - {k}) == (owned - remaining) + {k};
    assert k !in owned - remaining;
    InsertByDateMembers(store[k], out);
    forall e ensures multiset(InsertByDate(store[k], out))[e] == |Holding(store, owned - (remaining - {k}), e)| {
      HoldingStep(store, owned - remaining, k, e);
    }
  }

  lemma HoldingStep(store: Store, done: set<EntryId>, k: EntryId, e: Entry)
    requires k in store && k !in done
    ensures |Holding(store, done + {k}, e)| == |Holding(store, done, e)| + (if store[k] == e then 1 else 0)
  {
    if store[k] == e {
      assert Holding(store, done + {k}, e) == Holding(store, done, e) + {k};
    } else {
      assert Holding(store, done + {k}, e) == Holding(store, done, e);
    }
  }

  /** GET `/api/budgets`: after authentication, the requester's documents and
      only those, each once, most recent `date` first. */
  method ListBudgets(store: Store, header: Option<string>, c: Primitives) returns (r: Outcome<seq<Entry>>)
    ensures r.Fail? <==> Authenticate(header, c).Denied?
    ensures r.Fail? ==> r.status == Authenticate(header, c).status && r.error == Authenticate(header, c).error
    ensures r.Done? ==> r.status == 200 && NewestFirst(r.value)
    ensures r.Done? ==> forall e :: e in r.value ==> e in store.Values && e.userId == Authenticate(header, c).claims.id
    ensures r.Done? ==> forall k :: k in OwnedIds(store, Authenticate(header, c).claims.id) ==> store[k] in r.value
    ensures r.Done? ==> |r.value| == |OwnedIds(store, Authenticate(header, c).claims.id)|
    ensures r.Done? ==> forall e :: multiset(r.value)[e] == |Holding(store, OwnedIds(store, Authenticate(header, c).claims.id), e)|
  {
    var access := Authenticate(header, c);
    if access.Denied? {
      return Fail(access.status, access.error);
    }
    var out := FindByOwner(store, access.claims.id);
    return Done(200, out);
  }

  /** The body of POST `/api/budgets`; `None` is an absent field. */
  datatype NewBudget = NewBudget(
    category: Option<string>,
    amount: Option<int>,
    kind: Option<string>,
    date: Option<int>,
    description: Option<string>)

  /** `!category || !amount || !type`: a required field that is absent or
      falsy. An amount of 0 is falsy; a negative amount is not. */
  predicate MissingRequired(b: NewBudget) {
    || b.category.None? || b.category.value == ""
    || b.amount.None? || b.amount.value == 0
    || b.kind.None? || b.kind.value == ""
  }

  /** `date || new Date()`: an absent date, or the falsy date 0, becomes `now`. */
  function DateOrNow(date: Option<int>, now: int): (d: int)
    ensures date.None? || date.value == 0 ==> d == now
    ensures date.Some? && date.value != 0 ==> d == date.value
  {
    if date.Some? && date.value != 0 then date.value else now
  }

  /** POST `/api/budgets`. After authentication, a body with a falsy required
      field is answered with 400; otherwise a document owned by the requester
      is built with `date || now` as its date, and saving it either fails
      (schema validation, or `freshId` colliding with a stored id, both
      answered with 500 `Server error`) or adds exactly that one document and
      answers 201. */
  function CreateBudget(store: Store, header: Option<string>, c: Primitives, body: NewBudget, now: int, freshId: EntryId): (res: (Outcome<Entry>, Store))
    ensures Authenticate(header, c).Denied? ==>
      res == (Fail(Authenticate(header, c).status, Authenticate(header, c).error), store)
    ensures Authenticate(header, c).Granted? && MissingRequired(body) ==>
      res == (Fail(400, "Missing required fields"), store)
    ensures res.0.Fail? ==> res.1 == store && res.0.status in {400, 401, 403, 500}
    ensures Authenticate(header, c).Granted? && !MissingRequired(body) && !res.0.Done? ==>
      res == (Fail(500, "Server error"), store)
    ensures res.0.Done? <==>
      && Authenticate(header, c).Granted? && !MissingRequired(body)
      && !Text.AllSpace(body.category.value) && IsKind(body.kind.value)
      && freshId !in store
    ensures res.0.Done? ==>
      && res.0.status == 201
      && res.1 == store[freshId := res.0.value]
      && SchemaValid(res.0.value)
      && res.0.value.id == freshId
      && res.0.value.userId == Authenticate(header, c).claims.id
      && res.0.value.category == Text.Trim(body.category.value)
      && res.0.value.amount == body.amount.value
      && res.0.value.kind == body.kind.value
      && res.0.value.date == (if body.date.Some? && body.date.value != 0 then body.date.value else now)
      && res.0.value.description == TrimOpt(body.description)
      && res.0.value.createdAt == now && res.0.value.updatedAt == now
  {
    match Authenticate(header, c)
    case Denied(status, error) => (Fail(status, error), store)
    case Granted(claims) =>
      if MissingRequired(body) then (Fail(400, "Missing required fields"), store)
      else
        match NewDocument(freshId, claims.id, body.category.value, body.amount.value,
                          body.kind.value, Some(DateOrNow(body.date, now)), body.description, now)
        case None => (Fail(500, "Server error"), store)
        case Some(doc) =>
          if freshId in store then (Fail(500, "Server error"), store)
          else (Done(201, doc), store[freshId := doc])
  }

  /** The body of PUT `/api/budgets/:id`, passed to the database wholesale;
      `None` is a field the body does not mention. `userId` is a path of the
      schema, so a body may carry it. */
  datatype Changes = Changes(
    category: Option<string>,
    amount: Option<int>,
    kind: Option<string>,
    date: Option<int>,
    description: Option<string>,
    userId: Option<UserId>)

  /** The document after `findOneAndUpdate` applies `ch`: every field the body
      mentions is set (strings trimmed by the schema's setters), every other
      field is kept, and `updatedAt` becomes `now`. No validator runs. */
  function Apply(e: Entry, ch: Changes, now: int): (r: Entry)
    ensures r.id == e.id && r.createdAt == e.createdAt && r.updatedAt == now
    ensures r.category == (if ch.category.Some? then Text.Trim(ch.category.value) else e.category)
    ensures r.amount == (if ch.amount.Some? then ch.amount.value else e.amount)
    ensures r.kind == (if ch.kind.Some? then ch.kind.value else e.kind)
    ensures r.date == (if ch.date.Some? then ch.date.value else e.date)
    ensures r.description == (if ch.description.Some? then TrimOpt(ch.description) else e.description)
    ensures r.userId == (if ch.userId.Some? then ch.userId.value else e.userId)
  {
    e.(category := if ch.category.Some? then Text.Trim(ch.category.value) else e.category,
       amount := if ch.amount.Some? then ch.amount.value else e.amount,
       kind := if ch.kind.Some? then ch.kind.value else e.kind,
       date := if ch.date.Some? then ch.date.value else e.date,
       description := if ch.description.Some? then TrimOpt(ch.description) else e.description,
       userId := if ch.userId.Some? then ch.userId.value else e.userId,
       updatedAt := now)
  }

  /** PUT `/api/budgets/:id`, as written. After authentication, a document is
      changed only when it exists and belongs to the requester; otherwise the
      answer is 404 and the store is unchanged. On a match that one document
      is replaced by its updated version and every other document is kept. */
  function UpdateBudget(store: Store, header: Option<string>, c: Primitives, id: EntryId, ch: Changes, now: int): (res: (Outcome<Entry>, Store))
    ensures Authenticate(header, c).Denied? ==>
      res == (Fail(Authenticate(header, c).status, Authenticate(header, c).error), store)
    ensures res.0.Fail? ==> res.1 == store
    ensures res.0.Done? <==> Authenticate(header, c).Granted? && Owns(store, Authenticate(header, c).claims.id, id)
    ensures Authenticate(header, c).Granted? && !Owns(store, Authenticate(header, c).claims.id, id) ==>
      res.0 == Fail(404, "Budget not found")
    ensures res.0.Done? ==>
      && res.0.status == 200
      && res.1 == store[id := res.0.value]
      && res.0.value == Apply(store[id], ch, now)
  {
    match Authenticate(header, c)
    case Denied(status, error) => (Fail(status, error), store)
    case Granted(claims) =>
      if !Owns(store, claims.id, id) then (Fail(404, "Budget not found"), store)
      else
        var updated := Apply(store[id], ch, now);
        (Done(200, updated), store[id := updated])
  }

  /** DELETE `/api/budgets/:id`. After authentication, a document is removed
      only when it exists and belongs to the requester; otherwise the answer is
      404 and the store is unchanged. */
  function DeleteBudget(store: Store, header: Option<string>, c: Primitives, id: EntryId): (res: (Outcome<string>, Store))
    ensures Authenticate(header, c).Denied? ==>
      res == (Fail(Authenticate(header, c).status, Authenticate(header, c).error), store)
    ensures res.0.Fail? ==> res.1 == store
    ensures res.0.Done? <==> Authenticate(header, c).Granted? && Owns(store, Authenticate(header, c).claims.id, id)
    ensures Authenticate(header, c).Granted? && !Owns(store, Authenticate(header, c).claims.id, id) ==>
      res.0 == Fail(404, "Budget not found")
    ensures res.0.Done? ==>
      && res.0 == Done(200, "Budget deleted successfully")
      && res.1.Keys == store.Keys - {id}
      && forall k :: k in res.1 ==> res.1[k] == store[k]
  {
    match Authenticate(header, c)
    case Denied(status, error) => (Fail(status, error), store)
    case Granted(claims) =>
      if !Owns(store, claims.id, id) then (Fail(404, "Budget not found"), store)
      else (Done(200, "Budget deleted successfully"), store - {id})
  }

  /** Every document is stored under its own id. */
  predicate KeysMatchIds(store: Store) {
    forall k :: k in store ==> store[k].id == k
  }

  /** Every stored document satisfies the schema. */
  predicate AllValid(store: Store) {
    forall k :: k in store ==> SchemaValid(store[k])
  }

  /** Tenant isolation: whatever a request does, a document that is not the
      requester's own is left exactly as it was. */
  lemma OthersUntouched(store: Store, header: Option<string>, c: Primitives, body: NewBudget, ch: Changes, id: EntryId, now: int, freshId: EntryId, k: EntryId)
    requires Authenticate(header, c).Granted?
    requires k in store && store[k].userId != Authenticate(header, c).claims.id
    ensures k in CreateBudget(store, header, c, body, now, freshId).1
    ensures CreateBudget(store, header, c, body, now, freshId).1[k] == store[k]
    ensures k in UpdateBudget(store, header, c, id, ch, now).1
    ensures UpdateBudget(store, header, c, id, ch, now).1[k] == store[k]
    ensures k in DeleteBudget(store, header, c, id).1
    ensures DeleteBudget(store, header, c, id).1[k] == store[k]
  {
    var user := Authenticate(header, c).claims.id;
    if CreateBudget(store, header, c, body, now, freshId).0.Done? {
      assert freshId != k;
    }
    if UpdateBudget(store, header, c, id, ch, now).0.Done? {
      assert Owns(store, user, id) && id != k;
    }
    if DeleteBudget(store, header, c, id).0.Done? {
      assert Owns(store, user, id) && id != k;
    }
  }

  /** Information hiding: asking to update or delete another user's document
      gets the very answer a missing document gets, and changes nothing. */
  lemma ForeignLooksMissing(store: Store, header: Option<string>, c: Primitives, id: EntryId, ch: Changes, now: int)
    requires Authenticate(header, c).Granted?
    requires id in store && store[id].userId != Authenticate(header, c).claims.id
    ensures UpdateBudget(store, header, c, id, ch, now) == (UpdateBudget(store - {id}, header, c, id, ch, now).0, store)
    ensures DeleteBudget(store, header, c, id) == (DeleteBudget(store - {id}, header, c, id).0, store)
  {
  }

  /** Creating and deleting keep the store's invariants: each document sits
      under its own id and satisfies the schema. */
  lemma CreateDeleteKeepInvariants(store: Store, header: Option<string>, c: Primitives, body: NewBudget, now: int, freshId: EntryId, id: EntryId)
    requires KeysMatchIds(store) && AllValid(store)
    ensures KeysMatchIds(CreateBudget(store, header, c, body, now, freshId).1)
    ensures AllValid(CreateBudget(store, header, c, body, now, freshId).1)
    ensures KeysMatchIds(DeleteBudget(store, header, c, id).1)
    ensures AllValid(DeleteBudget(store, header, c, id).1)
  {
  }

  /** As written, an update whose body names another `userId` hands the
      document over: the requester no longer owns it and the named user does. */
  lemma UpdateCanReassignOwner(store: Store, header: Option<string>, c: Primitives, id: EntryId, ch: Changes, now: int)
    requires Authenticate(header, c).Granted? && Owns(store, Authenticate(header, c).claims.id, id)
    requires ch.userId.Some? && ch.userId.value != Authenticate(header, c).claims.id
    ensures UpdateBudget(store, header, c, id, ch, now).0.Done?
    ensures !Owns(UpdateBudget(store, header, c, id, ch, now).1, Authenticate(header, c).claims.id, id)
    ensures Owns(UpdateBudget(store, header, c, id, ch, now).1, ch.userId.value, id)
  {
  }

  /** As written, an update runs no validator, so a `type` outside the enum
      (or a blank category) is stored and the store no longer satisfies the
      schema. */
  lemma UpdateCanBreakSchema(store: Store, header: Option<string>, c: Primitives, id: EntryId, ch: Changes, now: int)
    requires Authenticate(header, c).Granted? && Owns(store, Authenticate(header, c).claims.id, id)
    requires (ch.kind.Some? && !IsKind(ch.kind.value)) || (ch.category.Some? && Text.AllSpace(ch.category.value))
    ensures UpdateBudget(store, header, c, id, ch, now).0.Done?
    ensures !AllValid(UpdateBudget(store, header, c, id, ch, now).1)
  {
    var updated := UpdateBudget(store, header, c, id, ch, now).1;
    if ch.category.Some? && Text.AllSpace(ch.category.value) {
      Text.TrimEmptyIffAllSpace(ch.category.value);
    }
    assert !SchemaValid(updated[id]);
  }

  /** PUT `/api/budgets/:id` restricted to the fields an owner may change:
      matched on id and owner like the written handler, but the owner is never taken from the body and
      the schema's validators run on the result, a rejected update being
      answered with 500 like any other error the handler catches. */
  function UpdateScoped(store: Store, header: Option<string>, c: Primitives, id: EntryId, ch: Changes, now: int): (res: (Outcome<Entry>, Store))
    ensures Authenticate(header, c).Denied? ==>
      res == (Fail(Authenticate(header, c).status, Authenticate(header, c).error), store)
    ensures res.0.Fail? ==> res.1 == store
    ensures Authenticate(header, c).Granted? && !Owns(store, Authenticate(header, c).claims.id, id) ==>
      res.0 == Fail(404, "Budget not found")
    ensures res.0.Done? ==> Authenticate(header, c).Granted? && Owns(store, Authenticate(header, c).claims.id, id)
    ensures res.0.Done? ==>
      && res.0.status == 200
      && res.1 == store[id := res.0.value]
      && res.0.value.userId == store[id].userId
      && res.0.value == Apply(store[id], ch.(userId := None), now)
      && SchemaValid(res.0.value)
    ensures Authenticate(header, c).Granted? && Owns(store, Authenticate(header, c).claims.id, id) && SchemaValid(store[id]) ==>
      (res.0.Done? <==> (ch.category.None? || !Text.AllSpace(ch.category.value)) && (ch.kind.None? || IsKind(ch.kind.value)))
  {
    match Authenticate(header, c)
    case Denied(status, error) => (Fail(status, error), store)
    case Granted(claims) =>
      if !Owns(store, claims.id, id) then (Fail(404, "Budget not found"), store)
      else
        var updated := Apply(store[id], ch.(userId := None), now);
        ChangedCategoryBlank(ch);
        if SchemaValid(updated) then (Done(200, updated), store[id := updated])
        else (Fail(500, "Server error"), store)
  }

  lemma ChangedCategoryBlank(ch: Changes)
    ensures ch.category.Some? ==> (Text.Trim(ch.category.value) == [] <==> Text.AllSpace(ch.category.value))
  {
    if ch.category.Some? {
      Text.TrimEmptyIffAllSpace(ch.category.value);
    }
  }

  /** The corrected update keeps every invariant the written one breaks: each
      document keeps its owner and its id, and a store satisfying the schema
      still does. */
  lemma UpdateScopedKeepsInvariants(store: Store, header: Option<string>, c: Primitives, id: EntryId, ch: Changes, now: int)
    requires KeysMatchIds(store) && AllValid(store)
    ensures KeysMatchIds(UpdateScoped(store, header, c, id, ch, now).1)
    ensures AllValid(UpdateScoped(store, header, c, id, ch, now).1)
    ensures UpdateScoped(store, header, c, id, ch, now).1.Keys == store.Keys
    ensures forall k :: k in store ==> UpdateScoped(store, header, c, id, ch, now).1[k].userId == store[k].userId
  {
  }

  /** Create, then amend the amount with a body that also names another
      owner: the document carries the new amount, keeps its owner and every
      other field, and still appears in its owner's list. */
  lemma CreateThenAmend(store: Store, header: Option<string>, c: Primitives, body: NewBudget, now: int, freshId: EntryId, amount: int, intruder: UserId, later: int)
    requires CreateBudget(store, header, c, body, now, freshId).0.Done?
    ensures var created := CreateBudget(store, header, c, body, now, freshId);
            var amended := UpdateScoped(created.1, header, c, freshId,
                                        Changes(None, Some(amount), None, None, None, Some(intruder)), later);
            && amended.0.Done?
            && amended.1[freshId] == created.0.value.(amount := amount, updatedAt := later)
            && freshId in OwnedIds(amended.1, Authenticate(header, c).claims.id)
  {
    var created := CreateBudget(store, header, c, body, now, freshId);
    var e := created.0.value;
    var ch := Changes(None, Some(amount), None, None, None, Some(intruder));
    assert Apply(e, ch.(userId := None), later) == e.(amount := amount, updatedAt := later);
  }
}

=== FILE: crypto.dfy ===
/** The two foreign libraries the backend calls, bcrypt and JSON Web Tokens,
    as uninterpreted operations supplied by the caller, together with the
    laws the model assumes of them. */
module Crypto {
  import opened Wrappers

  /** The payload `signToken` puts into a token: the user's id and email. */
  datatype Claims = Claims(id: nat, email: string)

  /** `hash(password, salt)` and `compare(password, hash)` stand for bcrypt;
      `sign(key, claims)` and `verify(key, token)` stand for `jwt.sign` and
      `jwt.verify` with the secret `key`. `verify` answers `None` wherever the
      library throws: a malformed, forged or expired token. `jwtSecret` is the
      process environment's `JWT_SECRET`, `None` when it is unset. */
  datatype Primitives = Primitives(
    hash: (string, nat) -> string,
    compare: (string, string) -> bool,
    sign: (string, Claims) -> string,
    verify: (string, string) -> Option<Claims>,
    jwtSecret: Option<string>)

  /** `JWT_SECRET` is set to a non-empty value. */
  predicate SecretSet(c: Primitives) {
    c.jwtSecret.Some? && c.jwtSecret.value != ""
  }

  /** The fallback secret of backend/routes/auth.js. */
  const FallbackSecret := "change-this"

  /** `process.env.JWT_SECRET || 'change-this'`: the key the auth routes sign
      and verify with. An empty variable is falsy and falls back too. */
  function SigningKey(c: Primitives): (k: string)
    ensures k != ""
    ensures SecretSet(c) ==> k == c.jwtSecret.value
    ensures !SecretSet(c) ==> k == FallbackSecret
  {
    if SecretSet(c) then c.jwtSecret.value else FallbackSecret
  }

  /** The laws assumed of the libraries: a password matches its own hash
      whatever the salt; a token freshly signed with a key verifies to its
      claims under that key (the token's lifetime is not modelled); and a
      signed token is a non-empty string without spaces, as a compact JWT is. */
  ghost predicate Honest(c: Primitives) {
    && (forall p, salt :: c.compare(p, c.hash(p, salt)))
    && (forall key, cl :: c.verify(key, c.sign(key, cl)) == Some(cl))
    && (forall key, cl :: c.sign(key, cl) != "" && ' ' !in c.sign(key, cl))
  }
}

=== FILE: seqs.dfy ===
/** Generic sequence operations: order-preserving filtering, subsequences and
    de-duplication in first-appearance order. */
module Seqs {

  /** `xs.filter(p)`: the elements satisfying `p`, in their original order. */
  function Filter<T(!new)>(xs: seq<T>, p: T -> bool): (r: seq<T>)
    ensures |r| <= |xs|
    ensures forall i :: 0 <= i < |r| ==> p(r[i])
  {
    if xs == [] then []
    else
      var r := Filter(xs[..|xs| - 1], p);
      if p(xs[|xs| - 1]) then r + [xs[|xs| - 1]] else r
  }

  /** Filtering keeps every element satisfying `p` as often as it occurs,
      and no other element. */
  lemma {:induction false} FilterCount<T(!new)>(xs: seq<T>, p: T -> bool)
    ensures forall x :: multiset(Filter(xs, p))[x] == if p(x) then multiset(xs)[x] else 0
  {
    if xs != [] {
      var n := |xs| - 1;
      FilterCount(xs[..n], p);
      assert xs == xs[..n] + [xs[n]];
    }
  }

  /** `idx` places every element of `a` at a strictly increasing position of `b`. */
  ghost predicate Embedding<T>(idx: seq<nat>, a: seq<T>, b: seq<T>) {
    && |idx| == |a|
    && (forall i :: 0 <= i < |idx| ==> idx[i] < |b| && a[i] == b[idx[i]])
    && (forall i, j :: 0 <= i < j < |idx| ==> idx[i] < idx[j])
  }

  /** `a` is obtained from `b` by deleting elements, keeping the order of the rest. */
  ghost predicate IsSubsequence<T>(a: seq<T>, b: seq<T>) {
    exists idx :: Embedding(idx, a, b)
  }

  /** Filtering keeps exactly the elements satisfying `p`, each as often as
      it occurs, as a subsequence. */
  lemma {:induction false} FilterIsSubsequence<T(!new)>(xs: seq<T>, p: T -> bool)
    ensures IsSubsequence(Filter(xs, p), xs)
    ensures forall x :: x in Filter(xs, p) <==> x in xs && p(x)
    ensures forall x :: multiset(Filter(xs, p))[x] == if p(x) then multiset(xs)[x] else 0
  {
    var idx := FilterPositions(xs, p);
    assert Embedding(idx, Filter(xs, p), xs);
    FilterCount(xs, p);
    forall x ensures x in Filter(xs, p) <==> x in xs && p(x) {
      assert x in Filter(xs, p) <==> x in multiset(Filter(xs, p));
      assert x in xs <==> x in multiset(xs);
    }
  }

  lemma {:induction false} FilterPositions<T(!new)>(xs: seq<T>, p: T -> bool) returns (idx: seq<nat>)
    ensures Embedding(idx, Filter(xs, p), xs)
  {
    if xs == [] {
      idx := [];
    } else {
      var n := |xs| - 1;
      var idx' := FilterPositions(xs[..n], p);
      if p(xs[n]) {
        idx := idx' + [n];
      } else {
        idx := idx';
      }
    }
  }

  /** Filtering distributes over concatenation. */
  lemma {:induction false} FilterAppend<T(!new)>(a: seq<T>, b: seq<T>, p: T -> bool)
    ensures Filter(a + b, p) == Filter(a, p) + Filter(b, p)
    decreases |b|
  {
    if b == [] {
      assert a + b == a;
    } else {
      var n := |b| - 1;
      assert (a + b)[..|a + b| - 1] == a + b[..n];
      FilterAppend(a, b[..n], p);
    }
  }

  /** Two filters in a row are one filter by the conjunction of their predicates. */
  lemma {:induction false} FilterFuse<T(!new)>(xs: seq<T>, p: T -> bool, q: T -> bool, pq: T -> bool)
    requires forall x :: pq(x) == (p(x) && q(x))
    ensures Filter(Filter(xs, p), q) == Filter(xs, pq)
  {
    if xs != [] {
      var n := |xs| - 1;
      FilterFuse(xs[..n], p, q, pq);
      var pre := Filter(xs[..n], p);
      if p(xs[n]) {
        assert (pre + [xs[n]])[..|pre|] == pre;
      }
    }
  }

  /** A filter every element passes changes nothing. */
  lemma {:induction false} FilterKeepsAll<T(!new)>(xs: seq<T>, p: T -> bool)
    requires forall i :: 0 <= i < |xs| ==> p(xs[i])
    ensures Filter(xs, p) == xs
  {
    if xs != [] {
      var n := |xs| - 1;
      FilterKeepsAll(xs[..n], p);
      assert xs[..n] + [xs[n]] == xs;
    }
  }

  /** A filter no element passes leaves nothing. */
  lemma {:induction false} FilterNone<T(!new)>(xs: seq<T>, p: T -> bool)
    requires forall i :: 0 <= i < |xs| ==> !p(xs[i])
    ensures Filter(xs, p) == []
  {
    if xs != [] {
      FilterNone(xs[..|xs| - 1], p);
    }
  }

  /** When only the first element passes, the filter leaves just that one. */
  lemma FilterOnlyFirst<T(!new)>(x: T, rest: seq<T>, p: T -> bool)
    requires p(x) && forall i :: 0 <= i < |rest| ==> !p(rest[i])
    ensures Filter([x] + rest, p) == [x]
  {
    FilterAppend([x], rest, p);
    FilterNone(rest, p);
    assert [x][..0] == [];
  }

  predicate NoDups<T(==)>(s: seq<T>) {
    forall i, j :: 0 <= i < j < |s| ==> s[i] != s[j]
  }

  /** Position of the first occurrence of `x` in `xs`. */
  function FirstIndex<T(==)>(xs: seq<T>, x: T): (i: nat)
    requires x in xs
    ensures i < |xs| && xs[i] == x && x !in xs[..i]
  {
    if xs[0] == x then 0 else
      var j := FirstIndex(xs[1..], x);
      assert xs[1..][..j] == xs[1..j + 1];
      1 + j
  }

  /** The first occurrence of `x` is unaffected by anything appended after it. */
  lemma FirstIndexPrefix<T>(xs: seq<T>, m: nat, x: T)
    requires m <= |xs| && x in xs[..m]
    ensures FirstIndex(xs, x) == FirstIndex(xs[..m], x)
  {
    var i := FirstIndex(xs, x);
    var j := FirstIndex(xs[..m], x);
    assert forall k | 0 <= k < i :: xs[k] != x by {
      forall k | 0 <= k < i ensures xs[k] != x { assert xs[..i][k] == xs[k]; }
    }
    assert forall k | 0 <= k < j :: xs[k] != x by {
      forall k | 0 <= k < j ensures xs[k] != x { assert xs[..m][..j][k] == xs[k]; }
    }
    assert xs[..m][j] == xs[j];
  }

  /** The elements of `r` appear in `r` in the order of their first
      occurrences in `xs`. */
  ghost predicate FirstAppearanceOrder<T>(r: seq<T>, xs: seq<T>) {
    forall i, j :: 0 <= i < j < |r| && r[i] in xs && r[j] in xs ==> FirstIndex(xs, r[i]) < FirstIndex(xs, r[j])
  }

  /** One step of `Distinct`: appending an element not seen before keeps the
      first-appearance order. */
  lemma DistinctStep<T>(pre: seq<T>, x: T, r: seq<T>)
    requires x !in pre
    requires forall i :: 0 <= i < |r| ==> r[i] in pre
    requires FirstAppearanceOrder(r, pre)
    ensures FirstAppearanceOrder(r + [x], pre + [x])
  {
    var xs := pre + [x];
    var r' := r + [x];
    assert xs[..|pre|] == pre;
    forall i | 0 <= i < |r| ensures FirstIndex(xs, r[i]) == FirstIndex(pre, r[i]) {
      FirstIndexPrefix(xs, |pre|, r[i]);
    }
    assert forall k | 0 <= k < |pre| :: xs[k] == pre[k];
    assert FirstIndex(xs, x) == |pre|;
    forall i, j | 0 <= i < j < |r'| && r'[i] in xs && r'[j] in xs
      ensures FirstIndex(xs, r'[i]) < FirstIndex(xs, r'[j])
    {
      assert r'[i] == r[i];
      if j < |r| {
        assert r'[j] == r[j];
      }
    }
  }

  /** Dropping an already-seen element from the end of `xs` keeps the
      first-appearance order. */
  lemma DistinctSkip<T>(pre: seq<T>, x: T, r: seq<T>)
    requires forall i :: 0 <= i < |r| ==> r[i] in pre
    requires FirstAppearanceOrder(r, pre)
    ensures FirstAppearanceOrder(r, pre + [x])
  {
    var xs := pre + [x];
    assert xs[..|pre|] == pre;
    forall i | 0 <= i < |r| ensures FirstIndex(xs, r[i]) == FirstIndex(pre, r[i]) {
      FirstIndexPrefix(xs, |pre|, r[i]);
    }
  }

  /** `Array.from(new Set(xs))`: every distinct element once, in the order of
      its first appearance in `xs`. */
  function Distinct<T(==)>(xs: seq<T>): (r: seq<T>)
    ensures forall i :: 0 <= i < |xs| ==> xs[i] in r
    ensures forall i :: 0 <= i < |r| ==> r[i] in xs
    ensures NoDups(r)
    ensures FirstAppearanceOrder(r, xs)
  {
    if xs == [] then []
    else
      var n := |xs| - 1;
      var x := xs[n];
      var r := Distinct(xs[..n]);
      assert xs == xs[..n] + [x];
      if x in r then
        DistinctSkip(xs[..n], x, r);
        r
      else
        DistinctStep(xs[..n], x, r);
        r + [x]
  }
}

=== FILE: session.dfy ===
/** The client and the two servers together: the `Authorization` header the
    client library builds from a stored token is the one `authenticate` and
    `/me` accept. */
module Session {
  import opened Wrappers
  import opened Http
  import opened Crypto
  import Api
  import AuthRoutes
  import BudgetRoutes

  /** The `Authorization` header as the server reads it from a header map. */
  function AuthHeader(h: map<string, string>): (r: Option<string>)
    ensures r.Some? <==> "Authorization" in h
    ensures r.Some? ==> r.value == h["Authorization"]
  {
    if "Authorization" in h then Some(h["Authorization"]) else None
  }

  /** A token the auth routes signed, sent back by the client, is parsed by
      `/me` and granted by the corrected budgets middleware with the same
      claims, and by the middleware as written whenever `JWT_SECRET` is set. */
  lemma SignedTokenAccepted(c: Primitives, cl: Claims)
    requires Honest(c)
    ensures var t := c.sign(SigningKey(c), cl);
            var h := AuthHeader(Api.RequestHeaders(true, Some(t)));
            && h == Some("Bearer " + t)
            && AuthRoutes.BearerToken(h.value) == Some(t)
            && c.verify(SigningKey(c), t) == Some(cl)
            && BudgetRoutes.AuthenticateShared(h, c) == BudgetRoutes.Granted(cl)
            && (SecretSet(c) ==> BudgetRoutes.Authenticate(h, c) == BudgetRoutes.Granted(cl))
  {
    var t := c.sign(SigningKey(c), cl);
    BudgetRoutes.BearerSecondField("Bearer", t);
    AuthRoutes.BearerTokenIff("Bearer " + t, t);
  }

  /** The route guard's check, `get('/api/auth/me', token)`: with a token the
      auth routes signed for a stored user, `/me` answers with that user's
      account; with no stored token no header is sent and `/me` answers
      `no_token`. */
  lemma GuardSeesSignedUser(users: AuthRoutes.Users, u: AuthRoutes.User, c: Primitives)
    requires Honest(c) && u in users
    ensures var t := AuthRoutes.SignToken(u, c);
            var h := AuthHeader(Api.GetHeaders(Some(t)));
            && h == Some("Bearer " + t)
            && AuthRoutes.Me(users, h, c).Done?
            && AuthRoutes.Me(users, h, c).value.id == u.id
    ensures AuthRoutes.Me(users, AuthHeader(Api.GetHeaders(None)), c) == Fail(401, "no_token")
  {
    var t := AuthRoutes.SignToken(u, c);
    AuthRoutes.BearerTokenIff("Bearer " + t, t);
    assert AuthRoutes.FindById(users, u.id).Some?;
  }

  /** A request made without authentication, or with no stored token, is
      turned away by both servers as carrying no token at all. */
  lemma NoTokenRejected(auth: bool, token: Option<string>, users: AuthRoutes.Users, c: Primitives)
    requires !auth || token.None? || token.value == ""
    ensures var h := AuthHeader(Api.RequestHeaders(auth, token));
            && h.None?
            && BudgetRoutes.Authenticate(h, c) == BudgetRoutes.Denied(401, "Missing token")
            && AuthRoutes.Me(users, h, c) == Fail(401, "no_token")
  {
  }

  /** After a successful login the client's next budgets request is
      authenticated as the user who logged in: always by the corrected
      middleware, and by the middleware as written when `JWT_SECRET` is set. */
  lemma LoginThenAuthenticated(users: AuthRoutes.Users, body: AuthRoutes.Credentials, c: Primitives)
    requires Honest(c)
    requires AuthRoutes.Login(users, body, c).Done?
    ensures var s := AuthRoutes.Login(users, body, c).value;
            var h := AuthHeader(Api.RequestHeaders(true, Some(s.accessToken)));
            && BudgetRoutes.AuthenticateShared(h, c) == BudgetRoutes.Granted(Claims(s.user.id, s.user.email))
            && (SecretSet(c) ==> BudgetRoutes.Authenticate(h, c) == BudgetRoutes.Granted(Claims(s.user.id, s.user.email)))
  {
    var s := AuthRoutes.Login(users, body, c).value;
    SignedTokenAccepted(c, Claims(s.user.id, s.user.email));
  }

  /** As written, with `JWT_SECRET` unset the auth routes sign with their
      fallback secret while `authenticate` has no secret at all: a user who
      has just logged in is recognised by `/me`, yet every budgets request
      with the same header is refused with 403. */
  lemma UnsetSecretLocksOut(users: AuthRoutes.Users, body: AuthRoutes.Credentials, c: Primitives)
    requires Honest(c) && c.jwtSecret.None?
    requires AuthRoutes.Login(users, body, c).Done?
    ensures var s := AuthRoutes.Login(users, body, c).value;
            var h := AuthHeader(Api.RequestHeaders(true, Some(s.accessToken)));
            && AuthRoutes.Me(users, h, c).Done?
            && AuthRoutes.Me(users, h, c).value.id == s.user.id
            && BudgetRoutes.Authenticate(h, c) == BudgetRoutes.Denied(403, "Invalid or expired token")
  {
    var s := AuthRoutes.Login(users, body, c).value;
    var u :| u in users && AuthRoutes.ProfileOf(u) == s.user;
    SignedTokenAccepted(c, Claims(s.user.id, s.user.email));
    assert AuthRoutes.FindById(users, s.user.id).Some?;
  }
}

=== FILE: text.dfy ===
/** The handful of JavaScript string operations the budget tracker relies on:
    `trim`, `toLowerCase`, `includes` and `split(" ")`. */
module Text {

  /** A code point that `String.prototype.trim` strips: the WhiteSpace and
      LineTerminator productions of ECMA-262. */
  predicate IsSpace(c: char) {
    || c == '\t' || c == '\n' || c == '\U{B}' || c == '\U{C}' || c == '\r' || c == ' '
    || c == '\U{A0}' || c == '\U{1680}' || ('\U{2000}' <= c <= '\U{200A}')
    || c == '\U{2028}' || c == '\U{2029}' || c == '\U{202F}' || c == '\U{205F}'
    || c == '\U{3000}' || c == '\U{FEFF}'
  }

  predicate AllSpace(s: string) {
    forall i :: 0 <= i < |s| ==> IsSpace(s[i])
  }

  /** `s` neither starts nor ends with whitespace. */
  predicate Trimmed(s: string) {
    s == [] || (!IsSpace(s[0]) && !IsSpace(s[|s| - 1]))
  }

  /** The first position at or after `i` that is not whitespace (or the end). */
  function SkipSpace(s: string, i: nat): (j: nat)
    requires i <= |s|
    ensures i <= j <= |s|
    ensures forall k :: i <= k < j ==> IsSpace(s[k])
    ensures j == |s| || !IsSpace(s[j])
    decreases |s| - i
  {
    if i < |s| && IsSpace(s[i]) then SkipSpace(s, i + 1) else i
  }

  /** Walking down from `j`, but not below `lo`, the start of the run of
      whitespace that ends at `j`. */
  function SkipSpaceBack(s: string, lo: nat, j: nat): (k: nat)
    requires lo <= j <= |s|
    ensures lo <= k <= j
    ensures forall m :: k <= m < j ==> IsSpace(s[m])
    ensures k == lo || !IsSpace(s[k - 1])
    decreases j
  {
    if j > lo && IsSpace(s[j - 1]) then SkipSpaceBack(s, lo, j - 1) else j
  }

  /** `s.trim()`: the longest infix of `s` that neither starts nor ends with
      whitespace, obtained by dropping a whitespace prefix and suffix. */
  function Trim(s: string): (r: string)
    ensures Trimmed(r)
    ensures exists i :: 0 <= i <= |s| - |r| && r == s[i..i + |r|] && AllSpace(s[..i]) && AllSpace(s[i + |r|..])
  {
    var i := SkipSpace(s, 0);
    var j := SkipSpaceBack(s, i, |s|);
    assert AllSpace(s[..i]) by {
      forall k | 0 <= k < i ensures IsSpace(s[..i][k]) { assert s[..i][k] == s[k]; }
    }
    assert AllSpace(s[j..]) by {
      forall k | 0 <= k < |s| - j ensures IsSpace(s[j..][k]) { assert s[j..][k] == s[j + k]; }
    }
    assert s[i..j] == s[i..i + |s[i..j]|];
    s[i..j]
  }

  /** Trimming is idempotent: a string without surrounding whitespace is
      left as it is. */
  lemma TrimIdempotent(s: string)
    requires Trimmed(s)
    ensures Trim(s) == s
  {
    assert SkipSpace(s, 0) == 0;
    assert SkipSpaceBack(s, 0, |s|) == |s|;
    assert s[0..|s|] == s;
  }

  /** A string trims to the empty string exactly when it is all whitespace. */
  lemma TrimEmptyIffAllSpace(s: string)
    ensures Trim(s) == [] <==> AllSpace(s)
  {
    var i := SkipSpace(s, 0);
    var j := SkipSpaceBack(s, i, |s|);
    if !AllSpace(s) {
      var k :| 0 <= k < |s| && !IsSpace(s[k]);
      assert i <= k;
      assert k < j;
    }
  }

  /** `toLowerCase` on one code point; only the ASCII letters are folded. */
  function LowerChar(c: char): char {
    if 'A' <= c <= 'Z' then (c as int + 32) as char else c
  }

  function ToLower(s: string): (r: string)
    ensures |r| == |s|
  {
    seq(|s|, i requires 0 <= i < |s| => LowerChar(s[i]))
  }

  /** `needle` occurs in `hay` starting at position `i`. */
  predicate OccursAt(hay: string, needle: string, i: int) {
    0 <= i <= |hay| - |needle| && hay[i..i + |needle|] == needle
  }

  /** `hay.includes(needle)`: `needle` occurs as a contiguous infix of `hay`. */
  predicate Includes(hay: string, needle: string) {
    exists i | 0 <= i <= |hay| - |needle| :: OccursAt(hay, needle, i)
  }

  lemma IncludesEmpty(hay: string)
    ensures Includes(hay, "")
  {
    assert OccursAt(hay, "", 0);
  }

  /** Position of the first `c` in `s`. */
  function IndexOf(s: string, c: char): (i: nat)
    requires c in s
    ensures i < |s| && s[i] == c && c !in s[..i]
  {
    if s[0] == c then 0 else
      var j := IndexOf(s[1..], c);
      assert s[1..][..j] == s[1..j + 1];
      1 + j
  }

  /** `parts.join(sep)` on a one-character separator. */
  function Join(parts: seq<string>, sep: char): string {
    if |parts| == 0 then ""
    else if |parts| == 1 then parts[0]
    else parts[0] + [sep] + Join(parts[1..], sep)
  }

  /** `s.split(sep)` for a one-character separator: the fields between
      successive separators, empty fields included, so that joining them
      back gives `s`. There is always at least one field. */
  function Split(s: string, sep: char): (parts: seq<string>)
    ensures |parts| >= 1
    ensures forall i :: 0 <= i < |parts| ==> sep !in parts[i]
    ensures Join(parts, sep) == s
    decreases |s|
  {
    if sep !in s then [s]
    else
      var i := IndexOf(s, sep);
      var rest := Split(s[i + 1..], sep);
      var parts := [s[..i]] + rest;
      assert parts[1..] == rest;
      assert s == s[..i] + [sep] + s[i + 1..];
      parts
  }

  /** Separator-free parts that join to a string holding the separator are
      at least two, and the second is the text after the first separator, up
      to the next separator or the end of the string. */
  lemma SecondOfJoin(s: string, sep: char, parts: seq<string>)
    requires sep in s && |parts| >= 1 && Join(parts, sep) == s
    requires forall k :: 0 <= k < |parts| ==> sep !in parts[k]
    ensures var i := IndexOf(s, sep);
      && |parts| >= 2 && i + 1 + |parts[1]| <= |s|
      && s[i + 1..i + 1 + |parts[1]|] == parts[1]
      && (i + 1 + |parts[1]| == |s| || s[i + 1 + |parts[1]|] == sep)
  {
    JoinSecond(parts, sep);
  }

  /** Joined separator-free parts: the first separator closes the first part,
      and the second part follows it up to the next separator or the end. */
  lemma {:induction false} JoinSecond(parts: seq<string>, sep: char)
    requires |parts| >= 2
    requires forall k :: 0 <= k < |parts| ==> sep !in parts[k]
    ensures var s, a, n := Join(parts, sep), |parts[0]|, |parts[0]| + 1 + |parts[1]|;
      && sep in s && IndexOf(s, sep) == a
      && n <= |s| && s[a + 1..n] == parts[1]
      && (n == |s| || s[n] == sep)
  {
    var s := Join(parts, sep);
    var p0 := parts[0];
    var tail := Join(parts[1..], sep);
    assert s == p0 + [sep] + tail;
    assert s[|p0|] == sep;
    JoinFirst(parts[1..], sep);
    assert s[|p0| + 1..] == tail;
  }

  /** Joined parts begin with the first part, followed by a separator or
      nothing. */
  lemma JoinFirst(parts: seq<string>, sep: char)
    requires |parts| >= 1
    ensures var s, a := Join(parts, sep), |parts[0]|;
      && a <= |s| && s[..a] == parts[0]
      && (a == |s| || s[a] == sep)
  {
  }

  /** Splitting inverts joining: fields free of the separator are recovered
      exactly, empty ones included. */
  lemma {:induction false} SplitJoin(parts: seq<string>, sep: char)
    requires |parts| >= 1
    requires forall i :: 0 <= i < |parts| ==> sep !in parts[i]
    ensures Split(Join(parts, sep), sep) == parts
    decreases |parts|
  {
    if |parts| == 1 {
    } else {
      var s := Join(parts, sep);
      JoinSecond(parts, sep);
      JoinHead(parts, sep);
      SplitUnfold(s, sep);
      SplitJoin(parts[1..], sep);
      assert parts == [parts[0]] + parts[1..];
    }
  }

  /** Two or more parts join to the first, a separator, and the rest joined. */
  lemma JoinHead(parts: seq<string>, sep: char)
    requires |parts| >= 2
    ensures var s, a := Join(parts, sep), |parts[0]|;
      && a < |s| && s[..a] == parts[0] && s[a + 1..] == Join(parts[1..], sep)
  {
    var s := Join(parts, sep);
    assert s == parts[0] + [sep] + Join(parts[1..], sep);
    assert s[..|parts[0]|] == parts[0];
  }

  /** A separator in `s` closes its first part; the rest is split on. */
  lemma SplitUnfold(s: string, sep: char)
    requires sep in s
    ensures Split(s, sep) == [s[..IndexOf(s, sep)]] + Split(s[IndexOf(s, sep) + 1..], sep)
  {
  }

  /** Two separator-free fields joined by one separator split back into
      exactly those two fields. */
  lemma SplitPair(a: string, b: string, sep: char)
    requires sep !in a && sep !in b
    ensures Split(a + [sep] + b, sep) == [a, b]
  {
    var parts := [a, b];
    assert parts[1..] == [b];
    SplitJoin(parts, sep);
  }
}

=== FILE: transactions.dfy ===
/** The transactions page: the category list for the filter menu, the four
    composed filters, the 8-per-page slicing and the Prev/Next page state. */
module Transactions {
  import opened Wrappers
  import opened Budget
  import Text
  import Seqs
  import Api

  // ---------------------------------------------------------------------
  // Category menu
  // ---------------------------------------------------------------------

  /** `"all"` followed by every category of the loaded entries, once each,
      in the order they first appear. */
  function UniqueCategories(es: seq<Entry>): (r: seq<string>)
    ensures |r| >= 1 && r[0] == "all"
    ensures forall i :: 0 <= i < |es| ==> es[i].category in r[1..]
    ensures forall i :: 1 <= i < |r| ==> r[i] in Api.EntryCats(es)
    ensures Seqs.NoDups(r[1..])
    ensures Seqs.FirstAppearanceOrder(r[1..], Api.EntryCats(es))
  {
    var cats := Api.EntryCats(es);
    var d := Seqs.Distinct(cats);
    assert (["all"] + d)[1..] == d;
    forall i | 0 <= i < |es| ensures es[i].category in d {
      assert cats[i] == es[i].category;
    }
    ["all"] + d
  }

  // ---------------------------------------------------------------------
  // Filters
  // ---------------------------------------------------------------------

  const DayMs: int := 86_400_000

  /** The filter controls. `tzOffset` is the browser's fixed offset from UTC
      in milliseconds (local time = UTC + tzOffset); dates are epoch milliseconds. */
  datatype Filters = Filters(
    search: string,
    category: string,
    kind: string,
    from: Option<int>,
    to: Option<int>,
    tzOffset: int)

  /** The filters as the page first renders them. */
  function Defaults(tzOffset: int): Filters {
    Filters("", "all", "all", None, None, tzOffset)
  }

  /** The local calendar day (days since the epoch, local time) holding instant `t`. */
  function LocalDay(t: int, tz: int): int {
    (t + tz) / DayMs
  }

  /** `to.setHours(23, 59, 59, 999)`: the last millisecond of `t`'s local day. */
  function EndOfLocalDay(t: int, tz: int): (r: int)
    ensures t <= r < t + DayMs
    ensures LocalDay(r, tz) == LocalDay(t, tz)
    ensures LocalDay(r + 1, tz) == LocalDay(t, tz) + 1
  {
    var local := t + tz;
    local - local % DayMs + (DayMs - 1) - tz
  }

  /** An instant is at or before the end of `t`'s local day exactly when its
      local day is not later than `t`'s. */
  lemma EndOfLocalDayIff(d: int, t: int, tz: int)
    ensures d <= EndOfLocalDay(t, tz) <==> LocalDay(d, tz) <= LocalDay(t, tz)
  {
    var e := EndOfLocalDay(t, tz);
    if d <= e {
      LocalDayMonotone(d, e, tz);
    } else {
      LocalDayMonotone(e + 1, d, tz);
    }
  }

  lemma LocalDayMonotone(a: int, b: int, tz: int)
    requires a <= b
    ensures LocalDay(a, tz) <= LocalDay(b, tz)
  {
    var x, y := a + tz, b + tz;
    assert x == DayMs * (x / DayMs) + x % DayMs;
    assert y == DayMs * (y / DayMs) + y % DayMs;
  }

  /** The search box: a case-insensitive substring of the category. */
  predicate MatchesSearch(term: string, e: Entry) {
    Text.Includes(Text.ToLower(e.category), Text.ToLower(term))
  }

  /** The category menu: `"all"` or exactly this category. */
  predicate MatchesCategory(cat: string, e: Entry) {
    cat == "all" || e.category == cat
  }

  /** The type menu: `"all"` or exactly this type. */
  predicate MatchesKind(kind: string, e: Entry) {
    kind == "all" || e.kind == kind
  }

  /** The date range applies only once both ends are picked, and then
      includes both the first instant and the whole last day. */
  predicate InDateRange(f: Filters, e: Entry) {
    f.from.None? || f.to.None? ||
    (f.from.value <= e.date && e.date <= EndOfLocalDay(f.to.value, f.tzOffset))
  }

  /** An entry passes every control. */
  predicate Keeps(f: Filters, e: Entry) {
    MatchesSearch(f.search, e) && MatchesCategory(f.category, e) &&
    MatchesKind(f.kind, e) && InDateRange(f, e)
  }

  /** The four `.filter` calls, applied in the page's order: an entry that
      passes every control is kept as often as it was loaded, any other is
      dropped. */
  function Filtered(f: Filters, es: seq<Entry>): (r: seq<Entry>)
    ensures forall e :: multiset(r)[e] == if Keeps(f, e) then multiset(es)[e] else 0
  {
    var p1 := (e: Entry) => MatchesSearch(f.search, e);
    var p2 := (e: Entry) => MatchesCategory(f.category, e);
    var p3 := (e: Entry) => MatchesKind(f.kind, e);
    var p4 := (e: Entry) => InDateRange(f, e);
    var s1 := Seqs.Filter(es, p1);
    var s2 := Seqs.Filter(s1, p2);
    var s3 := Seqs.Filter(s2, p3);
    Seqs.FilterCount(es, p1);
    Seqs.FilterCount(s1, p2);
    Seqs.FilterCount(s2, p3);
    Seqs.FilterCount(s3, p4);
    Seqs.Filter(s3, p4)
  }

  /** The chain of filters is the single filter by `Keeps`. */
  lemma FilteredIsKeeps(f: Filters, es: seq<Entry>)
    ensures Filtered(f, es) == Seqs.Filter(es, (e: Entry) => Keeps(f, e))
  {
    var p1 := (e: Entry) => MatchesSearch(f.search, e);
    var p2 := (e: Entry) => MatchesCategory(f.category, e);
    var p3 := (e: Entry) => MatchesKind(f.kind, e);
    var p4 := (e: Entry) => InDateRange(f, e);
    var p12 := (e: Entry) => MatchesSearch(f.search, e) && MatchesCategory(f.category, e);
    var p123 := (e: Entry) => p12(e) && MatchesKind(f.kind, e);
    var all := (e: Entry) => Keeps(f, e);
    Seqs.FilterFuse(es, p1, p2, p12);
    Seqs.FilterFuse(es, p12, p3, p123);
    Seqs.FilterFuse(es, p123, p4, all);
  }

  /** The filtered list keeps its entries in their loaded order, and holds
      exactly the loaded entries that pass every control, each as often as
      it was loaded. */
  lemma FilteredSpec(f: Filters, es: seq<Entry>)
    ensures Seqs.IsSubsequence(Filtered(f, es), es)
    ensures forall e :: e in Filtered(f, es) <==> e in es && Keeps(f, e)
    ensures forall e :: multiset(Filtered(f, es))[e] == if Keeps(f, e) then multiset(es)[e] else 0
  {
    FilteredIsKeeps(f, es);
    Seqs.FilterIsSubsequence(es, (e: Entry) => Keeps(f, e));
  }

  /** With the controls untouched, every loaded entry is shown. */
  lemma DefaultsKeepAll(es: seq<Entry>, tz: int)
    ensures Filtered(Defaults(tz), es) == es
  {
    var f := Defaults(tz);
    forall i | 0 <= i < |es| ensures Keeps(f, es[i]) {
      assert Text.ToLower("") == "";
      Text.IncludesEmpty(Text.ToLower(es[i].category));
    }
    FilteredIsKeeps(f, es);
    Seqs.FilterKeepsAll(es, (e: Entry) => Keeps(f, e));
  }

  /** With both ends picked, an entry is in range exactly when it is not
      before `from` and its local day is not after `to`'s. */
  lemma DateRangeByDay(f: Filters, e: Entry)
    requires f.from.Some? && f.to.Some?
    ensures InDateRange(f, e) <==>
      f.from.value <= e.date && LocalDay(e.date, f.tzOffset) <= LocalDay(f.to.value, f.tzOffset)
  {
    EndOfLocalDayIff(e.date, f.to.value, f.tzOffset);
  }

  // ---------------------------------------------------------------------
  // Pagination
  // ---------------------------------------------------------------------

  const ItemsPerPage: nat := 8

  /** `Math.ceil(n / 8)`. */
  function TotalPages(n: nat): (r: nat)
    ensures r * ItemsPerPage >= n
    ensures r == 0 || (r - 1) * ItemsPerPage < n
  {
    (n + ItemsPerPage - 1) / ItemsPerPage
  }

  /** How `Array.prototype.slice` reads an index: negative counts from the
      end, and the result is clamped to `[0, len]`. */
  function SliceIndex(i: int, len: nat): (r: nat)
    ensures r <= len
    ensures 0 <= i <= len ==> r == i
  {
    if i < 0 then (if len + i < 0 then 0 else len + i)
    else if i > len then len
    else i
  }

  /** `xs.slice(start, end)`: for indices inside the list, the run between
      them; an end at or before the start gives nothing. */
  function Slice<T>(xs: seq<T>, start: int, end: int): (r: seq<T>)
    ensures |r| <= |xs|
    ensures 0 <= start <= end <= |xs| ==> r == xs[start..end]
    ensures SliceIndex(end, |xs|) <= SliceIndex(start, |xs|) ==> r == []
    ensures |r| <= SliceIndex(end, |xs|)
  {
    var s := SliceIndex(start, |xs|);
    var e := SliceIndex(end, |xs|);
    if s < e then xs[s..e] else []
  }

  /** The entries shown on page `p`: whatever its number, no more than 8. */
  function Page<T>(xs: seq<T>, p: int): (r: seq<T>)
    ensures |r| <= ItemsPerPage
  {
    SliceIndexStep((p - 1) * ItemsPerPage, ItemsPerPage, |xs|);
    Slice(xs, (p - 1) * ItemsPerPage, p * ItemsPerPage)
  }

  function Min(a: int, b: int): int {
    if a <= b then a else b
  }

  lemma SliceIndexStep(i: int, k: nat, len: nat)
    ensures SliceIndex(i + k, len) <= SliceIndex(i, len) + k
  {
  }

  /** Page `p >= 1` is the run of entries at positions `[(p-1)*8, p*8)` that exist. */
  lemma PageIsWindow<T>(xs: seq<T>, p: int)
    requires p >= 1
    ensures var lo := Min((p - 1) * ItemsPerPage, |xs|);
            var hi := Min(p * ItemsPerPage, |xs|);
            lo <= hi && Page(xs, p) == xs[lo..hi]
  {
  }

  /** Pages 1..TotalPages hold entries exactly when they exist; later pages are empty. */
  lemma PageNonEmptyIff<T>(xs: seq<T>, p: int)
    requires p >= 1
    ensures Page(xs, p) != [] <==> p <= TotalPages(|xs|)
  {
    PageIsWindow(xs, p);
  }

  /** Pages 1 through `k`, one after the other. */
  function Pages<T>(xs: seq<T>, k: nat): seq<T> {
    if k == 0 then [] else Pages(xs, k - 1) + Page(xs, k)
  }

  lemma {:induction false} PagesPrefix<T>(xs: seq<T>, k: nat)
    ensures Pages(xs, k) == xs[..Min(k * ItemsPerPage, |xs|)]
  {
    if k > 0 {
      PagesPrefix(xs, k - 1);
      PageIsWindow(xs, k);
      var lo := Min((k - 1) * ItemsPerPage, |xs|);
      var hi := Min(k * ItemsPerPage, |xs|);
      assert xs[..lo] + xs[lo..hi] == xs[..hi];
    }
  }

  /** Reading every page in turn shows the whole list, once, in order. */
  lemma PagesCoverList<T>(xs: seq<T>)
    ensures Pages(xs, TotalPages(|xs|)) == xs
  {
    PagesPrefix(xs, TotalPages(|xs|));
    assert xs[..|xs|] == xs;
  }

  // ---------------------------------------------------------------------
  // Page state
  // ---------------------------------------------------------------------

  /** The Prev/Next bar is rendered only with more than one page. */
  predicate ShowsPager(n: nat) {
    TotalPages(n) > 1
  }

  /** Prev: rendered, and enabled unless on page 1. It moves back at most
      one page and never leaves the valid pages. */
  function ClickPrev(page: int, n: nat): (r: int)
    ensures page - 1 <= r <= page
    ensures r < page <==> ShowsPager(n) && page != 1
    ensures ValidPage(page, n) ==> ValidPage(r, n)
  {
    if ShowsPager(n) && page != 1 then page - 1 else page
  }

  /** Next: rendered, and enabled unless on the last page. It moves forward
      at most one page and never leaves the valid pages. */
  function ClickNext(page: int, n: nat): (r: int)
    ensures page <= r <= page + 1
    ensures r > page <==> ShowsPager(n) && page != TotalPages(n)
    ensures ValidPage(page, n) ==> ValidPage(r, n)
  {
    if ShowsPager(n) && page != TotalPages(n) then page + 1 else page
  }

  /** The page number names a page that exists (page 1 stands for an empty list). */
  predicate ValidPage(page: int, n: nat) {
    1 <= page && (page == 1 || page <= TotalPages(n))
  }

  /** A valid page of a non-empty list shows something. */
  lemma ValidPageShowsEntries<T>(xs: seq<T>, page: int)
    requires ValidPage(page, |xs|) && xs != []
    ensures Page(xs, page) != []
  {
    PageNonEmptyIff(xs, page);
  }

  /** As written: changing a filter leaves the current page number alone,
      whatever the filters and entries now are. */
  function RefilterAsWritten(page: int, f: Filters, es: seq<Entry>): int {
    page
  }

  /** As written, for any filters and entries: a page number beyond the new
      last page stays selected after the filter change and shows nothing, and
      when at most one page remains the pager is not rendered, so neither
      Prev nor Next can move away from it. */
  lemma StalePageAfterRefilter(page: int, f: Filters, es: seq<Entry>)
    requires page >= 2 && TotalPages(|Filtered(f, es)|) < page
    ensures var shown := Filtered(f, es);
            var r := RefilterAsWritten(page, f, es);
            && !ValidPage(r, |shown|)
            && Page(shown, r) == []
            && (TotalPages(|shown|) <= 1 ==>
                  !ShowsPager(|shown|) && ClickPrev(r, |shown|) == r && ClickNext(r, |shown|) == r)
  {
    PageNonEmptyIff(Filtered(f, es), page);
  }

  const SampleFood := Entry(0, 0, "food", 5, Expense, 0, None, 0, 0)
  const SampleRent := Entry(1, 0, "rent", 9, Expense, 0, None, 0, 0)
  const SampleSearch := Filters("re", "all", "all", None, None, 0)

  /** One "rent" entry followed by eight "food" entries. */
  function SampleList(): (r: seq<Entry>)
    ensures |r| == 9 && r[0] == SampleRent
    ensures forall i :: 1 <= i < |r| ==> r[i] == SampleFood
  {
    [SampleRent] + seq(8, _ => SampleFood)
  }

  lemma SampleSearchKeeps()
    ensures Keeps(SampleSearch, SampleRent)
    ensures !Keeps(SampleSearch, SampleFood)
  {
    assert Text.ToLower("rent") == "rent";
    assert Text.ToLower("food") == "food";
    assert Text.ToLower("re") == "re";
    assert Text.OccursAt("rent", "re", 0);
    forall i | 0 <= i <= |"food"| - |"re"| ensures !Text.OccursAt("food", "re", i) {
      assert "food"[i] != 'r';
    }
  }

  lemma SampleSearchFiltered()
    ensures Filtered(SampleSearch, SampleList()) == [SampleRent]
  {
    var es := SampleList();
    SampleSearchKeeps();
    assert es == [SampleRent] + es[1..];
    FilteredOnlyHead(SampleSearch, SampleRent, es[1..]);
  }

  /** A list whose first entry is the only one to pass filters down to it. */
  lemma FilteredOnlyHead(f: Filters, x: Entry, rest: seq<Entry>)
    requires Keeps(f, x) && forall i :: 0 <= i < |rest| ==> !Keeps(f, rest[i])
    ensures Filtered(f, [x] + rest) == [x]
  {
    FilteredIsKeeps(f, [x] + rest);
    Seqs.FilterOnlyFirst(x, rest, (e: Entry) => Keeps(f, e));
  }

  /** Nine matching entries with page 2 open; narrowing the search to the one
      "rent" entry leaves page 2 selected, which shows nothing, and the pager
      that could go back is no longer rendered. */
  lemma StalePageHidesEntries()
    ensures ValidPage(2, |Filtered(Defaults(0), SampleList())|)
    ensures var shown := Filtered(SampleSearch, SampleList());
            var page := RefilterAsWritten(2, SampleSearch, SampleList());
            && shown == [SampleRent]
            && !ValidPage(page, |shown|)
            && Page(shown, page) == []
            && !ShowsPager(|shown|)
            && ClickPrev(page, |shown|) == page
  {
    DefaultsKeepAll(SampleList(), 0);
    SampleSearchFiltered();
  }

  /** Corrected: a filter change returns to page 1. */
  function Refilter(page: int, f: Filters, es: seq<Entry>): (r: int)
    ensures ValidPage(r, |Filtered(f, es)|)
    ensures Filtered(f, es) != [] ==> Page(Filtered(f, es), r) != []
  {
    FirstPageShowsEntries(Filtered(f, es));
    1
  }

  /** Page 1 is valid for any list and shows something of a non-empty one. */
  lemma FirstPageShowsEntries<T>(xs: seq<T>)
    ensures ValidPage(1, |xs|)
    ensures xs != [] ==> Page(xs, 1) != []
  {
    if xs != [] {
      ValidPageShowsEntries(xs, 1);
    }
  }
}

=== FILE: wrappers.dfy ===
/** Small value wrappers shared by every module of the model. */
module Wrappers {

  /** An optional value: `None` stands for a JavaScript `undefined` (or a
      field that is absent from a JSON body). */
  datatype Option<+T> = None | Some(value: T)
}

/** The shape of an HTTP reply produced by a route handler. */
module Http {

  /** A handler either answers with a success status and a body, or with an
      error status and the stable error code of the JSON `{ error: ... }` body. */
  datatype Outcome<+T> = Done(status: int, value: T) | Fail(status: int, error: string)
}
